=== FILE: README.md ===
# Helpify chat backend: room lifecycle, session resolution and context layering in Dafny

This project models the core of the Helpify live-support backend: the room
and chat RPC services that gate which anonymous session may create, join,
archive and list rooms and send or read messages; the decimal wire
projection of stored records and the room lookup that parses it back; the
session step that turns a request's cookies into a session id, a fresh
two-hour PASETO token and a `Set-Cookie` header; and the request-context
layering that carries the session id and the support flag to every call.

The store is an immutable value with three tables (rooms, memberships,
messages). No row is ever deleted: memberships and messages are only
appended, and a room row changes only when `Archive` sets its archival time. Every RPC method is a pure function from the store,
the caller's session id and support flag, the current time and the call's
parameters to a `Result`: `Ok(Reply(store', value))` or `Err(error)`. An
error never comes with a new store, which is how the model says "nothing was
written, or the transaction was rolled back". The clock, the UUID source and
the token signing key are parameters.

Modules, one per source file or concern:

- `Results` (results.dfy): `Option` and `Result`.
- `Decimal` (decimal.dfy): `fmt.Sprint` of an unsigned id and `strconv.Atoi`.
- `Seqs` (seqs.dfy): filtering and ordering, the store's WHERE and ORDER BY.
- `Models` (models.dfy): `Room`, `JoinedRoom`, `Message`, the store, autoincrement keys, well-formedness.
- `ChatStructs` (chat_structs.dfy): the wire shapes and `FromModel`.
- `Common` (common.dfy): the error values and `findRoom`.
- `RoomService` (room_service.dfy): `Create`, `Join`, `Archive`, `List`, `NewRooms`.
- `ChatService` (chat_service.dfy): `Send`, `History`.
- `StoreInvariants` (store_invariants.dfy): invariants kept across any sequence of calls.
- `Cctx` (cctx.dfy): context values and `WithValues`.
- `Session` (session.dfy): `getOrCreateChatSessionCookie` and `prepareRequest`.
- `Scenarios` (scenarios.dfy): a concrete conversation, and the wiring from cookies to the support gate.

Points of the code worth knowing, which the model follows as written:

- The token parser is built with only two rules, issued by `"helpify"` and not expired (chat.go:70-73). Audience and not-before are set when a token is issued but never checked on verification. Expiry is inclusive: a token is still accepted at exactly its expiration second.
- The session cookie is always `Secure` with `SameSite=None` (chat.go:182-184). The commented-out `Secure: r.URL.Scheme == "https"` at chat.go:187 is the alternative the code does not take.
- `History` selects a room's messages with no ORDER BY (chat_svc.go:72-75), so the database decides the row order. The model takes that order to be insertion order; see "## Left out".

Modelling assumptions:

- `inRoom` (called at room_svc.go:120) is defined outside the files this model covers. `RoomService.InRoom` takes it to mean "some membership row links this session id to this room".
- The wire `Room` struct of `room.List` is likewise defined outside the files this model covers. `ChatStructs.WireRoom` has the two fields set at room_svc.go:174-177.

## Model

| member | source | states |
|---|---|---|
| Decimal.Render | internal/jsonrpc/chat_structs.go:30-32 | the decimal rendering of an id is non-empty, all digits, has no leading zero, and denotes the id |
| Decimal.AtoiAccepts | internal/jsonrpc/common.go:18-20 | the room-id parser accepts exactly an optional sign followed by one or more digits whose value fits a signed 64-bit int, and its result lies in that range |
| Decimal.AtoiRender | internal/jsonrpc/common.go:18 | parsing the rendering of an id gives the id back when it fits a signed 64-bit int, and fails for larger unsigned ids |
| Decimal.RenderInjective | internal/jsonrpc/chat_structs.go:30 | distinct ids render to distinct strings |
| Decimal.NumeralIsRender | internal/jsonrpc/chat_structs.go:30-32 | a number has exactly one canonical numeral (non-empty, digits only, no leading zero), and it is the one the rendering produces |
| Decimal.AtoiNonCanonical | internal/jsonrpc/common.go:18 | `+7` and `07` are read as room 7, just like `7` |
| Seqs.SortDesc | internal/jsonrpc/room_svc.go:166 | the ordering step is a permutation of its input, sorted by key from largest to smallest |
| Models.NextRoomId | internal/database/models/room.go:12 | the autoincrement key of a new room is positive and larger than every key in use |
| Models.NextJoinedRoomId | internal/database/models/joined_room.go:8 | the key of a new membership row is positive and larger than every key in use |
| Models.NextMessageId | internal/database/models/message.go:12 | the key of a new message is positive and larger than every key in use |
| ChatStructs.FromModel | internal/jsonrpc/chat_structs.go:29-35 | id and room id become the canonical numerals of the stored numbers (non-empty, digits only, no leading zero), as fmt.Sprint gives; message, user type and timestamp are copied unchanged |
| ChatStructs.MessageFromModel | internal/jsonrpc/chat_structs.go:24-27 | the result equals FromModel on every receiver, so the zero receiver's contents do not matter; its ids parse back to the stored ids |
| ChatStructs.MessageFromModelInjective | internal/jsonrpc/chat_structs.go:16-22 | two stored messages with the same wire form differ at most in their sender, which is never exposed |
| ChatStructs.RoomFromModel | internal/jsonrpc/room_svc.go:174-177 | a listed room shows its id as its canonical numeral (non-empty, digits only, no leading zero), and its creation time |
| Common.LookupRoom | internal/jsonrpc/common.go:22-25 | the select by key returns a stored room with that key, or nothing exactly when no room has it |
| Common.FindRoom | internal/jsonrpc/common.go:16-27 | an unparsable id fails without a lookup; otherwise the result is a stored room with the parsed key, and "not found" is returned exactly when no room has it |
| Common.FindRoomUnique | internal/jsonrpc/common.go:22-25 | with unique keys, the lookup returns the one room the parsed id names |
| Common.FindRoomRendered | internal/jsonrpc/room_svc.go:75 | looking up the rendering of an existing room's id returns that room |
| Common.FindRoomReadsOnlyRooms | internal/jsonrpc/common.go:22-25 | the lookup depends on the rooms table alone |
| RoomService.OpenRooms | internal/jsonrpc/room_svc.go:165 | a room is selected exactly when it is stored and has no archival time |
| RoomService.Create | internal/jsonrpc/room_svc.go:28-77 | fails with "too many open rooms" exactly when the caller owns an open room; otherwise appends one open room owned by the caller with the current time and a fresh key, and one membership row for the caller in it, leaves messages alone, and returns the canonical numeral of the key (so "7", never "07") |
| RoomService.CreateTwiceFails | internal/jsonrpc/room_svc.go:36-49 | after a successful Create, the same caller's next Create fails with "too many open rooms" |
| RoomService.CreateThenFind | internal/jsonrpc/room_svc.go:75 | the id Create returns resolves to the new room in the new store |
| StoreInvariants.CreateThenSendSameRoomId | internal/jsonrpc/room_svc.go:75 | sending to the id text Create returned succeeds, and the message Send returns carries that same text as its room id |
| RoomService.Join | internal/jsonrpc/room_svc.go:79-105 | a non-support caller gets "not allowed" whatever the store; an unknown room fails with the lookup's error; otherwise one membership row for the caller and that room is appended, nothing else changes, and the result is true |
| RoomService.JoinTwiceDuplicates | internal/jsonrpc/room_svc.go:94-101 | joining twice succeeds twice and leaves two identical membership rows |
| RoomService.ArchiveRooms | internal/jsonrpc/room_svc.go:139-143 | the update keeps the row count, every key, owner and creation time; it sets the archival time of each row with the key to now and leaves every other row as it was |
| RoomService.Archive | internal/jsonrpc/room_svc.go:107-150 | the checks run in this order: room exists, caller is a member, caller is support or owner, room not yet archived; the first one that fails gives the error; on success only the rows with that key get archival time now, the other tables are unchanged, and the result is true |
| RoomService.LookupArchived | internal/jsonrpc/room_svc.go:139-143 | after the update, the lookup by key finds the same room, now archived |
| RoomService.ArchiveTwiceFails | internal/jsonrpc/room_svc.go:134-137 | archiving the same room again fails with "already archived" |
| RoomService.SortedOpenRooms | internal/jsonrpc/room_svc.go:162-167 | the ordered selection holds exactly the open rooms |
| RoomService.ListedRoomsSound | internal/jsonrpc/room_svc.go:173-178 | every listed entry is the projection of some open room, and there are as many entries as open rooms |
| RoomService.ListedRoomsComplete | internal/jsonrpc/room_svc.go:173-178 | every open room appears in the list |
| RoomService.ListedRoomsOrdered | internal/jsonrpc/room_svc.go:166 | list entries are ordered by creation time, newest first |
| RoomService.List | internal/jsonrpc/room_svc.go:152-181 | a non-support caller gets "not allowed"; a support caller gets exactly the open rooms, each as decimal id and creation time, newest first |
| RoomService.NewRooms | internal/jsonrpc/room_svc.go:183-200 | a non-support caller gets "not allowed"; a support caller on a transport without push gets "notifications unsupported"; otherwise a subscription is created |
| ChatService.UserTypeOf | internal/jsonrpc/chat_svc.go:41-46 | the user type is 1 exactly for support personnel and 0 otherwise |
| ChatService.Send | internal/jsonrpc/chat_svc.go:25-57 | succeeds exactly when the room id resolves; then appends one message for that room with the caller as sender, the current time, the input text and the user type derived from the support flag, with a fresh key, changes nothing else, and returns that message's wire form |
| ChatService.SendIgnoresMembershipAndArchive | internal/jsonrpc/chat_svc.go:30-50 | sending to an archived room by a caller with no membership row succeeds |
| ChatService.MessagesIn | internal/jsonrpc/chat_svc.go:72-75 | a message is selected exactly when it is stored for the room, as often as it is stored |
| ChatService.MessagesInSnoc | internal/jsonrpc/chat_svc.go:72-75 | a message appended for the room comes last in the selection |
| ChatService.RoomHistoryComplete | internal/jsonrpc/chat_svc.go:80-82 | every message of the room appears in the history in wire form |
| ChatService.RoomHistorySound | internal/jsonrpc/chat_svc.go:80-82 | every history entry is the wire form of some message of the room |
| ChatService.History | internal/jsonrpc/chat_svc.go:59-85 | succeeds exactly when the room id resolves; then returns one wire message per stored message of that room, and only those |
| ChatService.HistoryIgnoresCaller | internal/jsonrpc/chat_svc.go:69 | the history does not depend on who asks |
| ChatService.HistoryOfQuietRoom | internal/jsonrpc/chat_svc.go:61 | an existing room without messages has an empty, not a missing, history |
| ChatService.SendThenHistory | internal/jsonrpc/chat_svc.go:55 | with the rows in insertion order (see Left out), what Send returns is the last entry of the room's history right afterwards |
| StoreInvariants.CreatePreservesValid | internal/jsonrpc/room_svc.go:36-67 | Create keeps keys unique, references pointing at existing rooms and at most one open room per owner; the existing rooms are exactly the first rows of the new table, unchanged |
| StoreInvariants.JoinPreservesValid | internal/jsonrpc/room_svc.go:94-101 | Join keeps the store well formed |
| StoreInvariants.ArchiveRoomsEvolve | internal/jsonrpc/room_svc.go:139-143 | stamping the one open room with a key keeps keys, owners and creation times, never clears or moves an archival time, and keeps the store's invariants |
| StoreInvariants.ArchivePreservesValid | internal/jsonrpc/room_svc.go:115-146 | Archive keeps the store well formed and only ever closes a room |
| StoreInvariants.SendPreservesValid | internal/jsonrpc/chat_svc.go:36-53 | Send keeps the store well formed; every message belongs to an existing room |
| StoreInvariants.ApplyPreservesValid | internal/controllers/chat.go:90-92 | any one registered call keeps the store well formed and never reopens a room |
| StoreInvariants.RunPreservesValid | internal/jsonrpc/room_svc.go:36-49 | any sequence of calls keeps every owner at most one open room and never clears an archival time once set |
| StoreInvariants.ReachableStoresValid | internal/jsonrpc/room_svc.go:36-49 | every store reachable from an empty database is well formed |
| Cctx.LastBindingFront | internal/cctx/helper.go:11-16 | among the pairs, a binding in a later pair wins over the first pair |
| Cctx.WithValues | internal/cctx/helper.go:5-19 | an even number of values with non-nil keys adds one layer per pair; each key then looks up the value of the last pair that binds it, or the parent's value if none does |
| Cctx.WithValuesEmpty | internal/cctx/helper.go:10-11 | with no values the parent context is returned |
| Session.FindCookie | internal/controllers/chat.go:138 | the lookup returns the value of the first cookie with that name, and nothing exactly when the request has none |
| Session.ParseToken | internal/controllers/chat.go:70-73 | a token is accepted exactly when its signature verifies, its issuer is "helpify" and its expiration is present and not passed; audience and not-before are not looked at |
| Session.RemoveDashes | internal/controllers/chat.go:162 | the result contains no dash and keeps every other character as often as it occurs |
| Session.RemoveDashesConcat | internal/controllers/chat.go:162 | removing dashes from a + b gives the result for a followed by the result for b, so characters keep their order |
| Session.RemoveDashesChar | internal/controllers/chat.go:162 | a single character is dropped exactly when it is a dash |
| Session.RemoveDashesNoDash | internal/controllers/chat.go:162 | text without dashes is returned unchanged |
| Session.DashGroup | internal/controllers/chat.go:162 | removing dashes keeps a dash-free group after a dash whole |
| Session.FreshSidShape | internal/controllers/chat.go:162 | a new session id made from a canonical UUID is 32 hex digits |
| Session.IssuedTokenVerifies | internal/controllers/chat.go:166-174 | a token this server issued verifies up to two hours after issue, and no longer, and yields the session id it was issued for |
| Session.SessionCookieValid | internal/controllers/chat.go:176-192 | the session cookie passes the validity check exactly when the signed token is a valid cookie value |
| Session.PriorSid | internal/controllers/chat.go:136-158 | there is an earlier session id exactly when a chat_session cookie is present, its token passes the parser, and the token's subject is present and non-empty; that subject is then the id |
| Session.GetOrCreateChatSessionCookie | internal/controllers/chat.go:133-197 | the id is the non-empty subject of a chat_session token the parser accepts, else the UUID without dashes; the call fails (with the cookie error) exactly when the token signed for that id is not a valid cookie value; on success the header is one Set-Cookie named chat_session with path /chat, Max-Age 7200, HttpOnly, Secure, SameSite=None, expiry 26 hours ahead, whose value is the token signed with issuer helpify, audience user, the id as subject, issued-at and not-before now, and expiry two hours ahead |
| Session.NoCookieNewSession | internal/controllers/chat.go:176-188 | without a session cookie the call succeeds with a new id, and the cookie has path /chat, Max-Age 7200, HttpOnly, Secure, SameSite=None, expiry 26 hours ahead, and its value is the token signed with issuer helpify, audience user, the new id as subject, issued-at and not-before now, expiry two hours ahead |
| Session.InvalidTokenIgnored | internal/controllers/chat.go:140-147 | a session cookie whose token fails verification is handled exactly as if no cookie had been sent |
| Session.SessionPersists | internal/controllers/chat.go:153-163 | presenting the cookie of an earlier call before its token expires keeps the session id; after it expires a new one is minted |
| Session.PrepareRequest | internal/controllers/chat.go:199-212 | the context carries the session id under "ha:sid" and, under "ha:sp", true exactly when a chat_support cookie is present; two layers are added and every other key is unchanged |
| Scenarios.SupportConversation | internal/jsonrpc/chat_svc.go:25-85 | from an empty store: Create returns "1", the visitor's message has user type 0 and room "1", support joins with true, its message has user type 1, and (with rows in insertion order, see Left out) the history is the two messages in order |
| Scenarios.SupportFlagFromCookies | internal/controllers/chat.go:199-211 | without a chat_support cookie, Join, List and NewRooms refuse the caller with "not allowed"; with one, whatever its value, Join succeeds exactly when the room id resolves |

## Left out

- Transport: the JSON-RPC dispatcher, WebSocket upgrade, subscriptions and notification fan-out live in a package that is not part of this model. `StoreInvariants.Apply` stands in for dispatch as a closed set of typed calls.
- `NewRooms`: which notifications a subscription later receives is not modelled. Only the support gate and the "notifications unsupported" failure are.
- `Register`, `handleChat`, the `/chat/rpc` and `/chat/iamsupport` handlers and the upgrader settings: HTTP plumbing.
- PASETO signing, signature verification and claim decoding: a foreign library. They are the `sign` and `open` parameters. `loadPasetoPrivateKey`, and the key used when decoding the configured secret fails (chat.go:66-68, 214-221), are left out because the key never appears in the model.
- Randomness: `uuid.New()` is the `uuid` parameter. `Session.FreshSidShape` covers the canonical UUID text.
- Clock: `time.Now()` is the `now` parameter. `Archive` stamps the room with the same `now` its caller passes.
- Cookie header parsing and `Cookie.String()` serialisation are not modelled: request cookies arrive as name/value pairs and the response header carries the cookie as a record.
- `r.Cookie` can only fail with "no cookie", so the branch of `getOrCreateChatSessionCookie` that propagates another lookup error is unreachable and has no counterpart.
- Database and infrastructure errors (failed insert, scan or transaction) are not modelled, nor are transaction isolation and concurrent callers. Each call is one atomic step. `Archive`'s lookups outside the transaction are a concurrency matter and are left out with it.
- Autoincrement keys are modelled as one past the largest key in use. A real sequence can skip values after a rolled-back insert; those rollbacks come only from infrastructure errors.
- Decimal.AtoiAccepts: the syntax and range errors of `strconv.Atoi` are one error value (`InvalidRoomId`), because both reach the caller as a failed call.
- Go's 64-bit unsigned id fields are unbounded naturals. `Decimal.AtoiRender` states what happens to ids above the signed 64-bit range.
- Times are whole seconds. Sub-second precision and time zones are not modelled.
- Row order of `History`: the SELECT at chat_svc.go:72-75 has no ORDER BY, so the order is the database's choice. The model returns the room's messages in insertion order. `ChatService.SendThenHistory` and `Scenarios.SupportConversation` (the history is the two messages in order, equal to what `Send` returned) rely on that choice and on whole-second times. `Send` returns the in-memory `time.Now()` (chat_svc.go:28, 55) while `History` returns the stored column, which can differ in precision. The order-free facts are `ChatService.RoomHistoryComplete` and `ChatService.RoomHistorySound`.
- Logging is left out.

=== FILE: cctx.dfy ===
/**
 * internal/cctx: request-scoped values. A context is a chain of key/value
 * layers over a root; looking a key up walks from the newest layer down,
 * so a later binding shadows an earlier one.
 */
module Cctx {
  import opened Results

  /** The dynamically typed values stored in a context. */
  datatype Value =
    | Nil               // Go's untyped nil: what a lookup of an unbound key yields
    | Key(name: string) // a value of the package's ContextKey type
    | Str(s: string)
    | Flag(b: bool)

  datatype Ctx = Background | WithValue(parent: Ctx, key: Value, val: Value)

  /** The two keys the request context carries. */
  const SessionID: Value := Key("ha:sid")
  const SupportPersonnel: Value := Key("ha:sp")

  /** `ctx.Value(key)`: the value of the newest layer bound to key, Nil if none. */
  function Lookup(ctx: Ctx, key: Value): Value {
    match ctx
    case Background => Nil
    case WithValue(parent, k, v) => if k == key then v else Lookup(parent, key)
  }

  function Depth(ctx: Ctx): nat {
    match ctx
    case Background => 0
    case WithValue(parent, _, _) => Depth(parent) + 1
  }

  /** The value paired with key by the last (key, value) pair of values that uses it. */
  function LastBinding(values: seq<Value>, key: Value): Option<Value>
    requires |values| % 2 == 0
  {
    if |values| == 0 then None
    else if values[|values| - 2] == key then Some(values[|values| - 1])
    else LastBinding(values[..|values| - 2], key)
  }

  /** What key should denote after layering values over parent: the last pair binding it, else the parent's value. */
  function LayeredLookup(parent: Ctx, values: seq<Value>, key: Value): Value
    requires |values| % 2 == 0
  {
    match LastBinding(values, key)
    case Some(v) => v
    case None => Lookup(parent, key)
  }

  /** Reading the pairs from the front: a binding among the later pairs wins over the first pair. */
  lemma {:induction false} LastBindingFront(values: seq<Value>, key: Value)
    requires |values| % 2 == 0 && |values| >= 2
    ensures LastBinding(values, key) ==
      match LastBinding(values[2..], key)
      case Some(v) => Some(v)
      case None => if values[0] == key then Some(values[1]) else None
  {
    if |values| > 2 {
      var n := |values|;
      assert values[2..][..n - 4] == values[..n - 2][2..];
      assert values[2..][n - 4] == values[n - 2] && values[2..][n - 3] == values[n - 1];
      LastBindingFront(values[..n - 2], key);
    } else {
      assert values[2..] == [];
    }
  }

  /**
   * `WithValues(parent, values...)`: layer the pairs (values[0], values[1]),
   * (values[2], values[3]), ... over parent in order. An odd number of values
   * panics, and so does a nil key; both are preconditions here.
   */
  function WithValues(parent: Ctx, values: seq<Value>): (ctx: Ctx)
    requires |values| % 2 == 0
    requires forall i :: 0 <= i < |values| && i % 2 == 0 ==> values[i] != Nil
    ensures Depth(ctx) == Depth(parent) + |values| / 2
    ensures forall key :: Lookup(ctx, key) == LayeredLookup(parent, values, key)
    decreases |values|
  {
    if |values| == 0 then parent
    else
      var rest := values[2..];
      assert forall i :: 0 <= i < |rest| && i % 2 == 0 ==> rest[i] == values[i + 2];
      var ctx := WithValues(WithValue(parent, values[0], values[1]), rest);
      assert forall key :: Lookup(ctx, key) == LayeredLookup(parent, values, key) by {
        forall key ensures Lookup(ctx, key) == LayeredLookup(parent, values, key) {
          LastBindingFront(values, key);
        }
      }
      ctx
  }

  /** With no values the parent is returned as is. */
  lemma WithValuesEmpty(parent: Ctx)
    ensures WithValues(parent, []) == parent
  {
  }

  /** The session id as handlers read it: None where their type assertion would panic. */
  function SessionIdOf(ctx: Ctx): Option<string> {
    match Lookup(ctx, SessionID)
    case Str(s) => Some(s)
    case _ => None
  }

  /** The support flag as handlers read it: None where their type assertion would panic. */
  function SupportOf(ctx: Ctx): Option<bool> {
    match Lookup(ctx, SupportPersonnel)
    case Flag(b) => Some(b)
    case _ => None
  }
}

=== FILE: chat_service.dfy ===
/**
 * internal/jsonrpc/chat_svc.go: the `chat.*` methods. Send appends one
 * message; History is a query and returns no new store.
 */
module ChatService {
  import opened Results
  import opened Models
  import opened Seqs
  import opened ChatStructs
  import opened Common

  /** The `userType` stamped on a message: 1 for support personnel, 0 otherwise. */
  function UserTypeOf(isSupport: bool): (t: nat)
    ensures t <= 1 && (t == 1 <==> isSupport)
  {
    if isSupport then 1 else 0
  }

  /**
   * `chat.Send`: find the room and append a message stamped with the caller's
   * session id, the current time and a user type taken from the caller's
   * support flag; return the stored message in its wire shape. Only the
   * room's existence is checked: neither membership nor archival is.
   */
  function Send(st: Store, sid: string, isSupport: bool, input: InputMessage, now: nat): (r: Result<Reply<WireMessage>, Error>)
    ensures r.Ok? <==> FindRoom(st, input.roomId).Ok?
    ensures r.Err? ==> r.error == FindRoom(st, input.roomId).error
    ensures r.Ok? ==>
      var st' := r.value.store;
      var n := |st.messages|;
      && st'.rooms == st.rooms && st'.joinedRooms == st.joinedRooms
      && |st'.messages| == n + 1 && st'.messages[..n] == st.messages
      && st'.messages[n].roomId == FindRoom(st, input.roomId).value.id
      && st'.messages[n].sender == sid
      && st'.messages[n].timestamp == now
      && st'.messages[n].message == input.message
      && (st'.messages[n].userType == 1 <==> isSupport)
      && st'.messages[n].userType <= 1
      && (forall m :: m in st.messages ==> m.id != st'.messages[n].id)
      && r.value.value == MessageFromModel(st'.messages[n])
  {
    var room :- FindRoom(st, input.roomId);
    var msg := Message(NextMessageId(st.messages), room.id, sid, now, UserTypeOf(isSupport), input.message);
    var st' := st.(messages := st.messages + [msg]);
    assert st'.messages[..|st.messages|] == st.messages;
    Ok(Reply(st', MessageFromModel(msg)))
  }

  function MessagesIn(messages: seq<Message>, roomId: nat): (r: seq<Message>)
    ensures forall m :: m in r <==> m in messages && m.roomId == roomId
    ensures forall m :: multiset(r)[m] == if m.roomId == roomId then multiset(messages)[m] else 0
  {
    var inRoom := (m: Message) => m.roomId == roomId;
    FilterMembers(messages, inRoom);
    FilterCounts(messages, inRoom);
    Filter(messages, inRoom)
  }

  function MessageViews(messages: seq<Message>): (r: seq<WireMessage>)
    ensures |r| == |messages|
    ensures forall i :: 0 <= i < |messages| ==> r[i] == MessageFromModel(messages[i])
  {
    seq(|messages|, i requires 0 <= i < |messages| => MessageFromModel(messages[i]))
  }

  /** The rows `chat.History` reports for a room key, projected; the SELECT has no ORDER BY and the model fixes insertion order. */
  function RoomHistory(messages: seq<Message>, roomId: nat): seq<WireMessage> {
    MessageViews(MessagesIn(messages, roomId))
  }

  lemma RoomHistoryComplete(messages: seq<Message>, roomId: nat)
    ensures forall m :: m in messages && m.roomId == roomId ==> MessageFromModel(m) in RoomHistory(messages, roomId)
  {
    var selected := MessagesIn(messages, roomId);
    forall m | m in messages && m.roomId == roomId ensures MessageFromModel(m) in RoomHistory(messages, roomId) {
      var i :| 0 <= i < |selected| && selected[i] == m;
      assert RoomHistory(messages, roomId)[i] == MessageFromModel(m);
    }
  }

  lemma RoomHistorySound(messages: seq<Message>, roomId: nat)
    ensures forall i :: 0 <= i < |RoomHistory(messages, roomId)| ==>
      exists m :: m in messages && m.roomId == roomId && RoomHistory(messages, roomId)[i] == MessageFromModel(m)
  {
    var selected := MessagesIn(messages, roomId);
    assert |RoomHistory(messages, roomId)| == |selected|;
    forall i | 0 <= i < |RoomHistory(messages, roomId)|
      ensures exists m :: m in messages && m.roomId == roomId && RoomHistory(messages, roomId)[i] == MessageFromModel(m)
    {
      var m := selected[i];
      assert m in selected;
      assert m in messages && m.roomId == roomId;
      assert RoomHistory(messages, roomId)[i] == MessageFromModel(m);
    }
  }

  /**
   * `chat.History`: find the room and return every message stored for it,
   * projected to the wire shape; an empty list when there are none. The
   * SELECT has no ORDER BY, and the model returns insertion order. The
   * caller's session id is read but not used.
   */
  function History(st: Store, sid: string, roomId: string): (r: Result<seq<WireMessage>, Error>)
    ensures r.Ok? <==> FindRoom(st, roomId).Ok?
    ensures r.Err? ==> r.error == FindRoom(st, roomId).error
    ensures r.Ok? ==> |r.value| == |MessagesIn(st.messages, FindRoom(st, roomId).value.id)|
    ensures r.Ok? ==> forall m :: m in st.messages && m.roomId == FindRoom(st, roomId).value.id ==>
      MessageFromModel(m) in r.value
    ensures r.Ok? ==> forall i :: 0 <= i < |r.value| ==>
      exists m :: m in st.messages && m.roomId == FindRoom(st, roomId).value.id && r.value[i] == MessageFromModel(m)
  {
    var room :- FindRoom(st, roomId);
    RoomHistoryComplete(st.messages, room.id);
    RoomHistorySound(st.messages, room.id);
    Ok(RoomHistory(st.messages, room.id))
  }

  /** History's answer does not depend on who asks. */
  lemma HistoryIgnoresCaller(st: Store, a: string, b: string, roomId: string)
    ensures History(st, a, roomId) == History(st, b, roomId)
  {
  }

  /** A room with no messages has an empty, not a missing, history. */
  lemma HistoryOfQuietRoom(st: Store, sid: string, roomId: string)
    requires FindRoom(st, roomId).Ok?
    requires forall m :: m in st.messages ==> m.roomId != FindRoom(st, roomId).value.id
    ensures History(st, sid, roomId) == Ok([])
  {
  }

  /** Send succeeds on an archived room and for a caller who never joined it. */
  lemma SendIgnoresMembershipAndArchive(st: Store, sid: string, isSupport: bool, input: InputMessage, now: nat)
    requires FindRoom(st, input.roomId).Ok? && !FindRoom(st, input.roomId).value.IsOpen()
    requires forall j :: j in st.joinedRooms ==> j.userId != sid
    ensures Send(st, sid, isSupport, input, now).Ok?
  {
  }

  /** A message stored for the room is selected last. */
  lemma MessagesInSnoc(messages: seq<Message>, msg: Message, roomId: nat)
    requires msg.roomId == roomId
    ensures MessagesIn(messages + [msg], roomId) == MessagesIn(messages, roomId) + [msg]
  {
    var inRoom := (m: Message) => m.roomId == roomId;
    FilterConcat(messages, [msg], inRoom);
    assert Filter([msg], inRoom) == [msg] by {
      assert [msg][1..] == [];
    }
  }

  /** What Send appends is exactly what a later History of the room reports last. */
  lemma SendThenHistory(st: Store, sid: string, isSupport: bool, input: InputMessage, now: nat, reader: string)
    requires Send(st, sid, isSupport, input, now).Ok?
    ensures var reply := Send(st, sid, isSupport, input, now).value;
      var h := History(reply.store, reader, input.roomId);
      h.Ok? && |h.value| > 0 && h.value[|h.value| - 1] == reply.value
  {
    var reply := Send(st, sid, isSupport, input, now).value;
    var room := FindRoom(st, input.roomId).value;
    FindRoomReadsOnlyRooms(st, reply.store, input.roomId);
    var msg := reply.store.messages[|st.messages|];
    assert reply.store.messages == st.messages + [msg] by {
      assert reply.store.messages[..|st.messages|] == st.messages;
    }
    MessagesInSnoc(st.messages, msg, room.id);
    var selected := MessagesIn(reply.store.messages, room.id);
    var h := RoomHistory(reply.store.messages, room.id);
    assert History(reply.store, reader, input.roomId) == Ok(h);
    assert h[|selected| - 1] == MessageFromModel(msg);
  }
}

=== FILE: chat_structs.dfy ===
/**
 * Wire shapes of internal/jsonrpc/chat_structs.go: what a client sends and
 * what it receives. Numeric ids travel as decimal strings; the sender's
 * session id is never exposed.
 */
module ChatStructs {
  import opened Results
  import opened Decimal
  import Models

  /** The parameters of `chat.Send`. */
  datatype InputMessage = InputMessage(roomId: string, message: string)

  /** A message as the client sees it. */
  datatype WireMessage = WireMessage(id: string, message: string, roomId: string, userType: nat, timestamp: nat)

  /** A room as `room.List` reports it: decimal id and creation time only. */
  datatype WireRoom = WireRoom(id: string, createdAt: nat)

  /** Go's zero value of the wire Message struct. */
  const ZeroMessage := WireMessage("", "", "", 0, 0)

  /**
   * The `(*Message).FromModel` method: every one of the five fields of the
   * receiver m is overwritten from the model record, so the receiver's old
   * contents do not matter.
   */
  function FromModel(m: WireMessage, msg: Models.Message): (r: WireMessage)
    ensures IsNumeral(r.id, msg.id)
    ensures IsNumeral(r.roomId, msg.roomId)
    ensures r.message == msg.message && r.userType == msg.userType && r.timestamp == msg.timestamp
  {
    m.(id := Render(msg.id), message := msg.message, roomId := Render(msg.roomId),
       userType := msg.userType, timestamp := msg.timestamp)
  }

  /** `MessageFromModel`: FromModel applied to a fresh zero-valued Message. */
  function MessageFromModel(msg: Models.Message): (r: WireMessage)
    ensures forall m :: FromModel(m, msg) == r
    ensures msg.id <= MaxInt64 ==> Atoi(r.id) == Some(msg.id)
    ensures msg.roomId <= MaxInt64 ==> Atoi(r.roomId) == Some(msg.roomId)
  {
    AtoiRender(msg.id);
    AtoiRender(msg.roomId);
    FromModel(ZeroMessage, msg)
  }

  /** The wire message is a faithful, one-to-one image of the stored record minus its sender. */
  lemma MessageFromModelInjective(a: Models.Message, b: Models.Message)
    requires MessageFromModel(a) == MessageFromModel(b)
    ensures a.(sender := b.sender) == b
  {
    RenderInjective(a.id, b.id);
    RenderInjective(a.roomId, b.roomId);
  }

  /** The projection `room.List` applies to each room. */
  function RoomFromModel(room: Models.Room): (r: WireRoom)
    ensures IsNumeral(r.id, room.id)
    ensures r.createdAt == room.createdAt
  {
    WireRoom(Render(room.id), room.createdAt)
  }
}

=== FILE: common.dfy ===
/** internal/jsonrpc/common.go: the room lookup every service method starts with. */
module Common {
  import opened Results
  import opened Decimal
  import opened Models

  /** The errors the services report to their caller. */
  datatype Error =
    | NotAllowed               // "not allowed": the caller lacks the support capability
    | TooManyOpenRooms         // "too many open rooms"
    | NotMember                // "not member of given room"
    | NotOwner                 // "can only interact with your own rooms"
    | AlreadyArchived          // "already archived"
    | InvalidRoomId            // strconv.Atoi rejected the room id
    | RoomNotFound             // the select found no row (sql.ErrNoRows)
    | NotificationsUnsupported // the transport cannot push notifications

  /** What a successful store transition leaves behind: the new store and the method's return value. */
  datatype Reply<+T> = Reply(store: Store, value: T)

  /** The first room with the given key, as a select by primary key finds it. */
  function LookupRoom(rooms: seq<Room>, id: int): (r: Option<Room>)
    ensures r.Some? ==> r.value in rooms && r.value.id == id
    ensures r.None? <==> forall room :: room in rooms ==> room.id != id
  {
    if |rooms| == 0 then None
    else if rooms[0].id == id then Some(rooms[0])
    else
      assert rooms == [rooms[0]] + rooms[1..];
      LookupRoom(rooms[1..], id)
  }

  /**
   * `findRoom`: parse the decimal room id, then select the room with that key.
   * A malformed id fails without looking at the store. The result is a value:
   * the store is not changed.
   */
  function FindRoom(st: Store, roomId: string): (r: Result<Room, Error>)
    ensures Atoi(roomId).None? ==> r == Err(InvalidRoomId)
    ensures r.Ok? ==> r.value in st.rooms && Atoi(roomId) == Some(r.value.id)
    ensures Atoi(roomId).Some? ==>
      (r == Err(RoomNotFound) <==> forall room :: room in st.rooms ==> room.id != Atoi(roomId).value)
    ensures r.Err? ==> r.error == InvalidRoomId || r.error == RoomNotFound
  {
    match Atoi(roomId)
    case None => Err(InvalidRoomId)
    case Some(id) =>
      match LookupRoom(st.rooms, id)
      case None => Err(RoomNotFound)
      case Some(room) => Ok(room)
  }

  /** With unique keys, FindRoom returns the one room the id names. */
  lemma FindRoomUnique(st: Store, roomId: string, room: Room)
    requires UniqueRoomIds(st.rooms)
    requires room in st.rooms && Atoi(roomId) == Some(room.id)
    ensures FindRoom(st, roomId) == Ok(room)
  {
    var found := FindRoom(st, roomId).value;
    var i :| 0 <= i < |st.rooms| && st.rooms[i] == room;
    var j :| 0 <= j < |st.rooms| && st.rooms[j] == found;
    assert i == j;
  }

  /** The decimal id a service hands out resolves back to its room. */
  lemma FindRoomRendered(st: Store, room: Room)
    requires UniqueRoomIds(st.rooms)
    requires room in st.rooms && room.id <= MaxInt64
    ensures FindRoom(st, Render(room.id)) == Ok(room)
  {
    AtoiRender(room.id);
    FindRoomUnique(st, Render(room.id), room);
  }

  /** FindRoom depends only on the rooms table. */
  lemma FindRoomReadsOnlyRooms(st: Store, st': Store, roomId: string)
    requires st.rooms == st'.rooms
    ensures FindRoom(st, roomId) == FindRoom(st', roomId)
  {
  }
}

=== FILE: decimal.dfy ===
/**
 * Decimal text for numeric ids: `fmt.Sprint` of an unsigned integer (how the
 * services render ids for the wire) and `strconv.Atoi` (how `findRoom` reads
 * them back).
 */
module Decimal {
  import opened Results

  /** Largest value of Go's 64-bit `int`, the result type of `strconv.Atoi`. */
  const MaxInt64: nat := 0x7FFF_FFFF_FFFF_FFFF

  predicate IsDigit(c: char) {
    '0' <= c <= '9'
  }

  predicate AllDigits(s: string) {
    forall i :: 0 <= i < |s| ==> IsDigit(s[i])
  }

  function DigitValue(c: char): (d: nat)
    requires IsDigit(c)
    ensures d < 10
  {
    c as int - '0' as int
  }

  function DigitChar(d: nat): (c: char)
    requires d < 10
    ensures IsDigit(c) && DigitValue(c) == d
  {
    ('0' as int + d) as char
  }

  /** The number a string of decimal digits denotes, most significant digit first. */
  function DigitsValue(s: string): nat
    requires AllDigits(s)
  {
    if |s| == 0 then 0 else DigitsValue(s[..|s| - 1]) * 10 + DigitValue(s[|s| - 1])
  }

  /** s is the canonical decimal numeral of n: not empty, digits only, no leading zero, denoting n. */
  predicate IsNumeral(s: string, n: nat) {
    && |s| > 0 && AllDigits(s) && DigitsValue(s) == n
    && (s[0] == '0' ==> s == "0")
  }

  /**
   * `fmt.Sprint(n)` for an unsigned integer: the shortest decimal numeral of n.
   * It is never empty, has no sign and no leading zero, and denotes n.
   */
  function Render(n: nat): (s: string)
    ensures |s| > 0 && AllDigits(s)
    ensures DigitsValue(s) == n
    ensures s[0] == '0' ==> s == "0"
    ensures IsNumeral(s, n)
    decreases n
  {
    if n < 10 then [DigitChar(n)]
    else
      var prefix := Render(n / 10);
      var s := prefix + [DigitChar(n % 10)];
      assert s[..|s| - 1] == prefix;
      s
  }

  /**
   * `strconv.Atoi(s)`: an optional '+' or '-', then one or more decimal digits,
   * and the value must fit Go's 64-bit `int`. None stands for the syntax and
   * range errors alike.
   */
  function Atoi(s: string): (r: Option<int>)
  {
    if |s| == 0 then None
    else
      var negative := s[0] == '-';
      var digits := if s[0] == '+' || s[0] == '-' then s[1..] else s;
      if |digits| == 0 || !AllDigits(digits) then None
      else
        var v: int := DigitsValue(digits);
        if !negative && v > MaxInt64 then None
        else if negative && v > MaxInt64 + 1 then None
        else
          var n := if negative then -v else v;
          Some(n)
  }

  /** Atoi accepts exactly a signed decimal numeral whose value fits 64 bits. */
  lemma AtoiAccepts(s: string)
    ensures Atoi(s).Some? <==>
      exists k :: 0 <= k <= 1 && k < |s| && (k == 1 <==> s[0] == '+' || s[0] == '-')
        && AllDigits(s[k..])
        && (if s[0] == '-' then DigitsValue(s[k..]) <= MaxInt64 + 1 else DigitsValue(s[k..]) <= MaxInt64)
    ensures Atoi(s).Some? ==> -(MaxInt64 + 1) <= Atoi(s).value <= MaxInt64
  {
    if Atoi(s).Some? {
      var k := if s[0] == '+' || s[0] == '-' then 1 else 0;
      assert s[k..] == (if s[0] == '+' || s[0] == '-' then s[1..] else s);
    }
  }

  /**
   * Render then Atoi is the identity on every id that fits Go's `int`; a larger
   * unsigned id renders to a numeral Atoi rejects as out of range.
   */
  lemma AtoiRender(n: nat)
    ensures n <= MaxInt64 ==> Atoi(Render(n)) == Some(n)
    ensures n > MaxInt64 ==> Atoi(Render(n)) == None
  {
    var s := Render(n);
    assert s[0] != '+' && s[0] != '-';
  }

  /** Distinct ids render to distinct numerals. */
  lemma RenderInjective(m: nat, n: nat)
    requires Render(m) == Render(n)
    ensures m == n
  {
  }

  /** Atoi does not insist on the canonical numeral: a '+' sign or leading zeros are read as the same number. */
  lemma AtoiNonCanonical(n: nat)
    requires n <= MaxInt64
    ensures Atoi("+" + Render(n)) == Some(n)
    ensures Atoi("0" + Render(n)) == Some(n)
  {
    var s := Render(n);
    assert ("+" + s)[1..] == s;
    ZeroPrefix(s);
  }

  lemma {:induction false} ZeroPrefix(s: string)
    requires AllDigits(s)
    ensures AllDigits("0" + s) && DigitsValue("0" + s) == DigitsValue(s)
  {
    if |s| > 0 {
      var t := "0" + s;
      assert t[..|t| - 1] == "0" + s[..|s| - 1];
      ZeroPrefix(s[..|s| - 1]);
    }
  }

  /** A digit string that does not start with '0' denotes a positive number. */
  lemma {:induction false} LeadingDigitPositive(s: string)
    requires |s| > 0 && AllDigits(s) && s[0] != '0'
    ensures DigitsValue(s) > 0
  {
    if |s| > 1 {
      LeadingDigitPositive(s[..|s| - 1]);
    }
  }

  /** Each number has exactly one canonical numeral, and it is the one Render produces. */
  lemma {:induction false} NumeralIsRender(s: string, n: nat)
    requires IsNumeral(s, n)
    ensures s == Render(n)
    decreases |s|
  {
    var last := s[|s| - 1];
    if |s| == 1 {
      assert DigitsValue(s[..0]) == 0;
      assert n == DigitValue(last) < 10;
      assert DigitChar(n) == last;
    } else {
      var prefix := s[..|s| - 1];
      assert prefix[0] == s[0] != '0';
      LeadingDigitPositive(prefix);
      assert n == DigitsValue(prefix) * 10 + DigitValue(last);
      assert n / 10 == DigitsValue(prefix) && n % 10 == DigitValue(last);
      NumeralIsRender(prefix, n / 10);
      assert DigitChar(n % 10) == last;
      assert s == prefix + [last];
    }
  }
}

=== FILE: models.dfy ===
/**
 * The three record kinds the store keeps (internal/database/models) and the
 * store itself as three tables. No row is ever deleted: memberships and
 * messages are only appended, and a room row changes only when Archive sets
 * its `archivedAt`. Times are whole seconds; the
 * ORM's base-model embedding and struct tags carry no behaviour and are dropped.
 */
module Models {
  import opened Results

  /** One support conversation. `archivedAt` is the nullable `ArchivedAt` column. */
  datatype Room = Room(id: nat, owner: string, createdAt: nat, archivedAt: Option<nat>) {
    predicate IsOpen() {
      archivedAt.None?
    }
  }

  /** A membership edge between a session id and a room. */
  datatype JoinedRoom = JoinedRoom(id: nat, userId: string, roomId: nat)

  /** One chat line; `userType` is 0 for an ordinary participant and 1 for support. */
  datatype Message = Message(id: nat, roomId: nat, sender: string, timestamp: nat, userType: nat, message: string)

  /** The database: one sequence per table, in insertion order. */
  datatype Store = Store(rooms: seq<Room>, joinedRooms: seq<JoinedRoom>, messages: seq<Message>)

  const EmptyStore := Store([], [], [])

  /** The largest of some ids, 0 for none. */
  function MaxId(ids: seq<nat>): (m: nat)
    ensures forall i :: 0 <= i < |ids| ==> ids[i] <= m
    ensures |ids| > 0 ==> m in ids
  {
    if |ids| == 0 then 0
    else
      var rest := MaxId(ids[1..]);
      assert forall i :: 1 <= i < |ids| ==> ids[i] == ids[1..][i - 1];
      if ids[0] >= rest then ids[0] else rest
  }

  function RoomIds(rooms: seq<Room>): seq<nat> {
    seq(|rooms|, i requires 0 <= i < |rooms| => rooms[i].id)
  }

  function JoinedRoomIds(joined: seq<JoinedRoom>): seq<nat> {
    seq(|joined|, i requires 0 <= i < |joined| => joined[i].id)
  }

  function MessageIds(messages: seq<Message>): seq<nat> {
    seq(|messages|, i requires 0 <= i < |messages| => messages[i].id)
  }

  /**
   * The key the autoincrement primary key assigns to the next room: one past
   * every key in use, so 1 in an empty table.
   */
  function NextRoomId(rooms: seq<Room>): (id: nat)
    ensures id > 0
    ensures forall r :: r in rooms ==> r.id < id
  {
    var ids := RoomIds(rooms);
    assert forall i :: 0 <= i < |rooms| ==> ids[i] == rooms[i].id;
    MaxId(ids) + 1
  }

  function NextJoinedRoomId(joined: seq<JoinedRoom>): (id: nat)
    ensures id > 0
    ensures forall j :: j in joined ==> j.id < id
  {
    var ids := JoinedRoomIds(joined);
    assert forall i :: 0 <= i < |joined| ==> ids[i] == joined[i].id;
    MaxId(ids) + 1
  }

  function NextMessageId(messages: seq<Message>): (id: nat)
    ensures id > 0
    ensures forall m :: m in messages ==> m.id < id
  {
    var ids := MessageIds(messages);
    assert forall i :: 0 <= i < |messages| ==> ids[i] == messages[i].id;
    MaxId(ids) + 1
  }

  /** Primary keys are unique in each table. */
  predicate UniqueRoomIds(rooms: seq<Room>) {
    forall i, j :: 0 <= i < j < |rooms| ==> rooms[i].id != rooms[j].id
  }

  predicate UniqueJoinedRoomIds(joined: seq<JoinedRoom>) {
    forall i, j :: 0 <= i < j < |joined| ==> joined[i].id != joined[j].id
  }

  predicate UniqueMessageIds(messages: seq<Message>) {
    forall i, j :: 0 <= i < j < |messages| ==> messages[i].id != messages[j].id
  }

  /** `room_id` columns only point at rooms that exist. */
  predicate RoomExists(rooms: seq<Room>, id: nat) {
    exists r :: r in rooms && r.id == id
  }

  /** The invariant Create keeps: nobody owns two rooms that are both still open. */
  predicate OneOpenRoomPerOwner(rooms: seq<Room>) {
    forall i, j :: 0 <= i < j < |rooms| && rooms[i].owner == rooms[j].owner ==>
      !(rooms[i].IsOpen() && rooms[j].IsOpen())
  }

  /** The store a sequence of the modelled operations can produce. */
  predicate Valid(st: Store) {
    && UniqueRoomIds(st.rooms)
    && UniqueJoinedRoomIds(st.joinedRooms)
    && UniqueMessageIds(st.messages)
    && OneOpenRoomPerOwner(st.rooms)
    && (forall j :: j in st.joinedRooms ==> RoomExists(st.rooms, j.roomId))
    && (forall m :: m in st.messages ==> RoomExists(st.rooms, m.roomId))
  }
}

=== FILE: results.dfy ===
/** Failure-compatible wrappers shared by every module of the model. */
module Results {

  /** An optional value: the Go code's nil pointers and "not found" answers. */
  datatype Option<+T> = None | Some(value: T)

  /** A value or the error the Go function would have returned beside it. */
  datatype Result<+T, +E> = Ok(value: T) | Err(error: E) {

    predicate IsFailure() {
      Err?
    }

    function PropagateFailure<U>(): Result<U, E>
      requires Err?
    {
      Err(error)
    }

    function Extract(): T
      requires Ok?
    {
      value
    }
  }
}

=== FILE: room_service.dfy ===
/**
 * internal/jsonrpc/room_svc.go: the `room.*` methods as transitions of the
 * store. Each takes the caller's session id and support flag explicitly
 * (the values the request context carries) and the current time `now`.
 * An Err result means the store is left as it was: either nothing was
 * written or the transaction was rolled back.
 */
module RoomService {
  import opened Results
  import opened Decimal
  import opened Models
  import opened Seqs
  import opened ChatStructs
  import opened Common

  /** The caller owns a room that has not been archived. */
  predicate HasOpenRoom(rooms: seq<Room>, sid: string) {
    exists room :: room in rooms && room.owner == sid && room.IsOpen()
  }

  /**
   * The `inRoom` membership test (its definition is not part of this model):
   * some JoinedRoom row links the session to the room.
   */
  predicate InRoom(st: Store, sid: string, roomId: nat) {
    exists j :: j in st.joinedRooms && j.userId == sid && j.roomId == roomId
  }

  function OpenRooms(rooms: seq<Room>): (r: seq<Room>)
    ensures forall room :: room in r <==> room in rooms && room.IsOpen()
  {
    var open := (room: Room) => room.IsOpen();
    FilterMembers(rooms, open);
    Filter(rooms, open)
  }

  /**
   * `room.Create`: if the caller already owns an open room, fail with
   * "too many open rooms"; otherwise insert the room and the owner's
   * membership row in one transaction and return the new key in decimal.
   */
  function Create(st: Store, sid: string, now: nat): (r: Result<Reply<string>, Error>)
    ensures r.Err? <==> HasOpenRoom(st.rooms, sid)
    ensures r.Err? ==> r.error == TooManyOpenRooms
    ensures r.Ok? ==>
      var st' := r.value.store;
      var n := |st.rooms|;
      var k := |st.joinedRooms|;
      && |st'.rooms| == n + 1 && st'.rooms[..n] == st.rooms
      && st'.rooms[n].owner == sid && st'.rooms[n].createdAt == now && st'.rooms[n].IsOpen()
      && (forall room :: room in st.rooms ==> room.id != st'.rooms[n].id)
      && |st'.joinedRooms| == k + 1 && st'.joinedRooms[..k] == st.joinedRooms
      && st'.joinedRooms[k].userId == sid && st'.joinedRooms[k].roomId == st'.rooms[n].id
      && (forall j :: j in st.joinedRooms ==> j.id != st'.joinedRooms[k].id)
      && st'.messages == st.messages
      && IsNumeral(r.value.value, st'.rooms[n].id)
  {
    if HasOpenRoom(st.rooms, sid) then Err(TooManyOpenRooms)
    else
      var room := Room(NextRoomId(st.rooms), sid, now, None);
      var joined := JoinedRoom(NextJoinedRoomId(st.joinedRooms), sid, room.id);
      var st' := st.(rooms := st.rooms + [room], joinedRooms := st.joinedRooms + [joined]);
      assert st'.rooms[..|st.rooms|] == st.rooms;
      assert st'.joinedRooms[..|st.joinedRooms|] == st.joinedRooms;
      Ok(Reply(st', Render(room.id)))
  }

  /**
   * `room.Join`: support personnel only. Finds the room and appends a
   * membership row for the caller, even if one already exists.
   */
  function Join(st: Store, sid: string, isSupport: bool, roomId: string): (r: Result<Reply<bool>, Error>)
    ensures !isSupport ==> r == Err(NotAllowed)
    ensures isSupport && FindRoom(st, roomId).Err? ==> r == Err(FindRoom(st, roomId).error)
    ensures r.Ok? <==> isSupport && FindRoom(st, roomId).Ok?
    ensures r.Ok? ==>
      var st' := r.value.store;
      var k := |st.joinedRooms|;
      && r.value.value
      && st'.rooms == st.rooms && st'.messages == st.messages
      && |st'.joinedRooms| == k + 1 && st'.joinedRooms[..k] == st.joinedRooms
      && st'.joinedRooms[k].userId == sid
      && st'.joinedRooms[k].roomId == FindRoom(st, roomId).value.id
      && (forall j :: j in st.joinedRooms ==> j.id != st'.joinedRooms[k].id)
  {
    if !isSupport then Err(NotAllowed)
    else
      var room :- FindRoom(st, roomId);
      var joined := JoinedRoom(NextJoinedRoomId(st.joinedRooms), sid, room.id);
      var st' := st.(joinedRooms := st.joinedRooms + [joined]);
      assert st'.joinedRooms[..|st.joinedRooms|] == st.joinedRooms;
      Ok(Reply(st', true))
  }

  /** Set `archivedAt` on the rooms with the given key (the UPDATE ... WHERE id = ?). */
  function ArchiveRooms(rooms: seq<Room>, id: nat, now: nat): (r: seq<Room>)
    ensures |r| == |rooms|
    ensures forall i :: 0 <= i < |rooms| ==>
      r[i].id == rooms[i].id && r[i].owner == rooms[i].owner && r[i].createdAt == rooms[i].createdAt
    ensures forall i :: 0 <= i < |rooms| && rooms[i].id == id ==> r[i].archivedAt == Some(now)
    ensures forall i :: 0 <= i < |rooms| && rooms[i].id != id ==> r[i] == rooms[i]
  {
    seq(|rooms|, i requires 0 <= i < |rooms| =>
      if rooms[i].id == id then rooms[i].(archivedAt := Some(now)) else rooms[i])
  }

  /**
   * `room.Archive`: in one transaction, check in this order that the room
   * exists, that the caller is a member, that the caller is support or the
   * owner, and that the room is still open; the first failed check is the
   * error. Otherwise stamp the room archived at `now` and return true.
   */
  function Archive(st: Store, sid: string, isSupport: bool, roomId: string, now: nat): (r: Result<Reply<bool>, Error>)
    ensures FindRoom(st, roomId).Err? ==> r == Err(FindRoom(st, roomId).error)
    ensures FindRoom(st, roomId).Ok? ==>
      var room := FindRoom(st, roomId).value;
      && (!InRoom(st, sid, room.id) ==> r == Err(NotMember))
      && (InRoom(st, sid, room.id) && !isSupport && room.owner != sid ==> r == Err(NotOwner))
      && (InRoom(st, sid, room.id) && (isSupport || room.owner == sid) && !room.IsOpen() ==> r == Err(AlreadyArchived))
      && (r.Ok? <==> InRoom(st, sid, room.id) && (isSupport || room.owner == sid) && room.IsOpen())
    ensures r.Ok? ==>
      var st' := r.value.store;
      var id := FindRoom(st, roomId).value.id;
      && r.value.value
      && st'.joinedRooms == st.joinedRooms && st'.messages == st.messages
      && |st'.rooms| == |st.rooms|
      && (forall i :: 0 <= i < |st.rooms| && st.rooms[i].id == id ==>
            st'.rooms[i] == st.rooms[i].(archivedAt := Some(now)))
      && (forall i :: 0 <= i < |st.rooms| && st.rooms[i].id != id ==> st'.rooms[i] == st.rooms[i])
  {
    var room :- FindRoom(st, roomId);
    if !InRoom(st, sid, room.id) then Err(NotMember)
    else if !isSupport && room.owner != sid then Err(NotOwner)
    else if !room.IsOpen() then Err(AlreadyArchived)
    else Ok(Reply(st.(rooms := ArchiveRooms(st.rooms, room.id, now)), true))
  }

  function CreatedAt(room: Room): int {
    room.createdAt
  }

  /** The List projection applied to each room in turn. */
  function RoomViews(rooms: seq<Room>): (r: seq<WireRoom>)
    ensures |r| == |rooms|
    ensures forall i :: 0 <= i < |rooms| ==> r[i] == RoomFromModel(rooms[i])
  {
    seq(|rooms|, i requires 0 <= i < |rooms| => RoomFromModel(rooms[i]))
  }

  /** The ORDER BY created_at DESC result holds exactly the open rooms. */
  lemma SortedOpenRooms(rooms: seq<Room>)
    ensures var sorted := SortDesc(OpenRooms(rooms), CreatedAt);
      && |sorted| == |OpenRooms(rooms)|
      && (forall room :: room in rooms && room.IsOpen() ==> room in sorted)
      && (forall room :: room in sorted ==> room in rooms && room.IsOpen())
  {
    var open := OpenRooms(rooms);
    var sorted := SortDesc(open, CreatedAt);
    forall room | room in rooms && room.IsOpen() ensures room in sorted {
      assert room in multiset(open);
    }
    forall room | room in sorted ensures room in rooms && room.IsOpen() {
      assert room in multiset(sorted);
    }
  }

  /** The rows `room.List` reports, in order: the open rooms sorted by creation time, newest first, projected. */
  function ListedRooms(rooms: seq<Room>): seq<WireRoom> {
    RoomViews(SortDesc(OpenRooms(rooms), CreatedAt))
  }

  /** row is the projection of some open room. */
  predicate IsOpenRoomRow(rooms: seq<Room>, row: WireRoom) {
    exists room :: room in rooms && room.IsOpen() && row == RoomFromModel(room)
  }

  /** Every row is the projection of some open room. */
  predicate OnlyOpenRooms(rooms: seq<Room>, rows: seq<WireRoom>) {
    forall i :: 0 <= i < |rows| ==> IsOpenRoomRow(rooms, rows[i])
  }

  /** Every open room has its row. */
  predicate CoversOpenRooms(rooms: seq<Room>, rows: seq<WireRoom>) {
    forall room :: room in rooms && room.IsOpen() ==> RoomFromModel(room) in rows
  }

  /** Rows run from the most recently created room to the oldest. */
  predicate NewestFirst(rows: seq<WireRoom>) {
    forall i, j :: 0 <= i < j < |rows| ==> rows[i].createdAt >= rows[j].createdAt
  }

  /** What a correct `room.List` answer is: one row per open room, every open room present, newest first. */
  predicate IsListing(rooms: seq<Room>, rows: seq<WireRoom>) {
    && |rows| == |OpenRooms(rooms)|
    && CoversOpenRooms(rooms, rows)
    && OnlyOpenRooms(rooms, rows)
    && NewestFirst(rows)
  }

  lemma ListedRoomsSound(rooms: seq<Room>)
    ensures |ListedRooms(rooms)| == |OpenRooms(rooms)|
    ensures OnlyOpenRooms(rooms, ListedRooms(rooms))
  {
    var sorted := SortDesc(OpenRooms(rooms), CreatedAt);
    var rows := ListedRooms(rooms);
    SortedOpenRooms(rooms);
    assert |rows| == |sorted| == |OpenRooms(rooms)|;
    forall i | 0 <= i < |rows| ensures IsOpenRoomRow(rooms, rows[i]) {
      var room := sorted[i];
      assert room in sorted;
      assert room in rooms && room.IsOpen();
      assert rows[i] == RoomFromModel(room);
    }
  }

  lemma ListedRoomsComplete(rooms: seq<Room>)
    ensures CoversOpenRooms(rooms, ListedRooms(rooms))
  {
    var sorted := SortDesc(OpenRooms(rooms), CreatedAt);
    var rows := ListedRooms(rooms);
    SortedOpenRooms(rooms);
    forall room | room in rooms && room.IsOpen() ensures RoomFromModel(room) in rows {
      var i :| 0 <= i < |sorted| && sorted[i] == room;
      assert rows[i] == RoomFromModel(room);
    }
  }

  lemma ListedRoomsOrdered(rooms: seq<Room>)
    ensures NewestFirst(ListedRooms(rooms))
  {
    var sorted := SortDesc(OpenRooms(rooms), CreatedAt);
    assert forall i :: 0 <= i < |sorted| ==> ListedRooms(rooms)[i].createdAt == CreatedAt(sorted[i]);
  }

  lemma ListedRoomsIsListing(rooms: seq<Room>)
    ensures IsListing(rooms, ListedRooms(rooms))
  {
    ListedRoomsSound(rooms);
    ListedRoomsComplete(rooms);
    ListedRoomsOrdered(rooms);
  }

  /**
   * `room.List`: support personnel only. Every open room, most recently
   * created first, projected to its decimal id and creation time.
   */
  function List(st: Store, isSupport: bool): (r: Result<seq<WireRoom>, Error>)
    ensures !isSupport ==> r == Err(NotAllowed)
    ensures isSupport ==> r.Ok?
    ensures r.Ok? ==> IsListing(st.rooms, r.value)
  {
    if !isSupport then Err(NotAllowed)
    else
      ListedRoomsIsListing(st.rooms);
      Ok(ListedRooms(st.rooms))
  }

  /** The handle a `room.NewRooms` subscriber receives; what is pushed through it is not modelled. */
  datatype Subscription = Subscription

  /**
   * `room.NewRooms`: support personnel only, and only on a transport that
   * can push notifications.
   */
  function NewRooms(isSupport: bool, canNotify: bool): (r: Result<Subscription, Error>)
    ensures r.Ok? <==> isSupport && canNotify
    ensures !isSupport ==> r == Err(NotAllowed)
    ensures isSupport && !canNotify ==> r == Err(NotificationsUnsupported)
  {
    if !isSupport then Err(NotAllowed)
    else if !canNotify then Err(NotificationsUnsupported)
    else Ok(Subscription)
  }

  /** After a successful Create, the same caller's next Create fails until the room is archived. */
  lemma CreateTwiceFails(st: Store, sid: string, now: nat, later: nat)
    requires Create(st, sid, now).Ok?
    ensures Create(Create(st, sid, now).value.store, sid, later) == Err(TooManyOpenRooms)
  {
    var st' := Create(st, sid, now).value.store;
    assert st'.rooms[|st.rooms|] in st'.rooms;
  }

  /** The id Create returns names the new room, and only it, in the new store. */
  lemma CreateThenFind(st: Store, sid: string, now: nat)
    requires Create(st, sid, now).Ok?
    ensures var reply := Create(st, sid, now).value;
      var room := reply.store.rooms[|st.rooms|];
      room.id <= MaxInt64 ==> FindRoom(reply.store, reply.value) == Ok(room)
  {
    var reply := Create(st, sid, now).value;
    var rooms' := reply.store.rooms;
    var room := rooms'[|st.rooms|];
    if room.id <= MaxInt64 {
      assert reply.value == Render(room.id);
      AtoiRender(room.id);
      var found := FindRoom(reply.store, reply.value).value;
      var i :| 0 <= i < |rooms'| && rooms'[i] == found;
    }
  }

  /** Join is not idempotent: joining twice leaves two identical membership edges. */
  lemma JoinTwiceDuplicates(st: Store, sid: string, roomId: string)
    requires Join(st, sid, true, roomId).Ok?
    ensures var st1 := Join(st, sid, true, roomId).value.store;
      var r2 := Join(st1, sid, true, roomId);
      && r2.Ok?
      && var st2 := r2.value.store;
      && |st2.joinedRooms| == |st.joinedRooms| + 2
      && st2.joinedRooms[|st.joinedRooms|].userId == st2.joinedRooms[|st.joinedRooms| + 1].userId == sid
      && st2.joinedRooms[|st.joinedRooms|].roomId == st2.joinedRooms[|st.joinedRooms| + 1].roomId
  {
    var st1 := Join(st, sid, true, roomId).value.store;
    FindRoomReadsOnlyRooms(st, st1, roomId);
    var st2 := Join(st1, sid, true, roomId).value.store;
    assert st2.joinedRooms[..|st1.joinedRooms|] == st1.joinedRooms;
    assert st2.joinedRooms[|st.joinedRooms|] == st1.joinedRooms[|st.joinedRooms|];
  }

  /** The UPDATE keeps every key in place, so a lookup by key finds the same row, now archived. */
  lemma {:induction false} LookupArchived(rooms: seq<Room>, id: nat, now: nat)
    requires LookupRoom(rooms, id).Some?
    ensures LookupRoom(ArchiveRooms(rooms, id, now), id) == Some(LookupRoom(rooms, id).value.(archivedAt := Some(now)))
  {
    var archived := ArchiveRooms(rooms, id, now);
    if rooms[0].id != id {
      assert archived[1..] == ArchiveRooms(rooms[1..], id, now);
      LookupArchived(rooms[1..], id, now);
    }
  }

  /** Archiving a room a second time fails with "already archived". */
  lemma ArchiveTwiceFails(st: Store, sid: string, isSupport: bool, roomId: string, now: nat, later: nat)
    requires Archive(st, sid, isSupport, roomId, now).Ok?
    ensures Archive(Archive(st, sid, isSupport, roomId, now).value.store, sid, isSupport, roomId, later)
      == Err(AlreadyArchived)
  {
    var room := FindRoom(st, roomId).value;
    var st' := Archive(st, sid, isSupport, roomId, now).value.store;
    LookupArchived(st.rooms, room.id, now);
    assert FindRoom(st', roomId) == Ok(room.(archivedAt := Some(now)));
  }
}

=== FILE: scenarios.dfy ===
/**
 * A concrete conversation from an empty database: a visitor opens a room
 * and writes, a support agent joins and answers, and the visitor reads
 * the history back.
 */
module Scenarios {
  import opened Results
  import opened Decimal
  import opened Models
  import opened ChatStructs
  import opened Common
  import opened RoomService
  import opened ChatService
  import Cctx
  import Session

  const Room1 := Room(1, "visitor", 10, None)
  const Hi := Message(1, 1, "visitor", 11, 0, "hi")
  const Hello := Message(2, 1, "agent", 12, 1, "hello")
  const AfterCreate := Store([Room1], [JoinedRoom(1, "visitor", 1)], [])
  const AfterHi := AfterCreate.(messages := [Hi])
  const AfterJoin := AfterHi.(joinedRooms := AfterHi.joinedRooms + [JoinedRoom(2, "agent", 1)])
  const AfterHello := AfterJoin.(messages := [Hi, Hello])

  /** "1" names room 1 in every store of the conversation. */
  lemma FindRoomOne(st: Store)
    requires st.rooms == [Room1]
    ensures FindRoom(st, "1") == Ok(Room1)
  {
    assert DigitsValue("1") == DigitsValue("1"[..0]) * 10 + 1;
  }

  lemma StepCreate()
    ensures Create(EmptyStore, "visitor", 10) == Ok(Reply(AfterCreate, "1"))
  {
    assert NextRoomId([]) == 1;
    assert NextJoinedRoomId([]) == 1;
    assert Render(1) == "1";
  }

  lemma StepHi()
    ensures Send(AfterCreate, "visitor", false, InputMessage("1", "hi"), 11) == Ok(Reply(AfterHi, MessageFromModel(Hi)))
  {
    FindRoomOne(AfterCreate);
    assert NextMessageId([]) == 1;
  }

  lemma StepJoin()
    ensures Join(AfterHi, "agent", true, "1") == Ok(Reply(AfterJoin, true))
  {
    FindRoomOne(AfterHi);
    assert MaxId(JoinedRoomIds(AfterHi.joinedRooms)) == 1 by {
      assert JoinedRoomIds(AfterHi.joinedRooms) == [1];
    }
  }

  lemma StepHello()
    ensures Send(AfterJoin, "agent", true, InputMessage("1", "hello"), 12) == Ok(Reply(AfterHello, MessageFromModel(Hello)))
  {
    FindRoomOne(AfterJoin);
    assert MaxId(MessageIds([Hi])) == 1 by {
      assert MessageIds([Hi]) == [1];
    }
    assert [Hi] + [Hello] == [Hi, Hello];
  }

  /** Both messages of the conversation are in room 1, in the order they were sent. */
  lemma BothInRoomOne()
    ensures MessagesIn([Hi, Hello], 1) == [Hi, Hello]
  {
    MessagesInSnoc([], Hi, 1);
    MessagesInSnoc([Hi], Hello, 1);
    assert [] + [Hi] == [Hi];
    assert [Hi] + [Hello] == [Hi, Hello];
  }

  lemma StepHistory()
    ensures History(AfterHello, "visitor", "1") == Ok([MessageFromModel(Hi), MessageFromModel(Hello)])
  {
    FindRoomOne(AfterHello);
    BothInRoomOne();
    var views := MessageViews([Hi, Hello]);
    assert views == [MessageFromModel(Hi), MessageFromModel(Hello)] by {
      assert views[0] == MessageFromModel(Hi) && views[1] == MessageFromModel(Hello);
    }
    assert RoomHistory(AfterHello.messages, 1) == views;
  }

  /**
   * The visitor opens room "1" and writes "hi" (user type 0), support joins
   * and answers "hello" (user type 1), and the visitor's history shows both
   * messages in that order.
   */
  lemma SupportConversation()
    ensures var c := Create(EmptyStore, "visitor", 10);
      && c.Ok? && c.value.value == "1"
      && var s1 := Send(c.value.store, "visitor", false, InputMessage("1", "hi"), 11);
      && s1.Ok? && s1.value.value.userType == 0 && s1.value.value.roomId == "1"
      && var j := Join(s1.value.store, "agent", true, "1");
      && j.Ok? && j.value.value
      && var s2 := Send(j.value.store, "agent", true, InputMessage("1", "hello"), 12);
      && s2.Ok? && s2.value.value.userType == 1
      && var h := History(s2.value.store, "visitor", "1");
      && h.Ok? && h.value == [s1.value.value, s2.value.value]
  {
    StepCreate();
    StepHi();
    StepJoin();
    StepHello();
    StepHistory();
    assert Render(1) == "1";
  }

  /**
   * The identity a request runs under comes from its cookies: without a
   * `chat_support` cookie, the support-only methods refuse the caller
   * whatever the store holds; with one, whatever its value, Join reaches
   * the room lookup.
   */
  lemma SupportFlagFromCookies(parent: Cctx.Ctx, cookies: seq<Session.RequestCookie>, sid: string, st: Store, roomId: string)
    ensures var ctx := Session.PrepareRequest(parent, cookies, sid);
      var isSupport := Cctx.SupportOf(ctx).value;
      && Cctx.SessionIdOf(ctx) == Some(sid)
      && ((forall c :: c in cookies ==> c.name != "chat_support") ==>
            && Join(st, sid, isSupport, roomId) == Err(NotAllowed)
            && List(st, isSupport) == Err(NotAllowed)
            && NewRooms(isSupport, true) == Err(NotAllowed))
      && ((exists c :: c in cookies && c.name == "chat_support") ==>
            (Join(st, sid, isSupport, roomId).Ok? <==> FindRoom(st, roomId).Ok?))
  {
  }
}

=== FILE: seqs.dfy ===
/** Sequence helpers that stand in for the store's WHERE and ORDER BY clauses. */
module Seqs {

  /** The elements of s that satisfy p, in their original order (a WHERE clause). */
  function Filter<T(==,!new)>(s: seq<T>, p: T -> bool): (r: seq<T>)
    ensures |r| <= |s|
  {
    if |s| == 0 then [] else (if p(s[0]) then [s[0]] else []) + Filter(s[1..], p)
  }

  /** Filter keeps exactly the elements that satisfy p. */
  lemma {:induction false} FilterMembers<T(!new)>(s: seq<T>, p: T -> bool)
    ensures forall x :: x in Filter(s, p) <==> x in s && p(x)
  {
    if |s| > 0 {
      assert s == [s[0]] + s[1..];
      FilterMembers(s[1..], p);
    }
  }

  /** Filter keeps every satisfying element as often as it occurs, and no other. */
  lemma {:induction false} FilterCounts<T(!new)>(s: seq<T>, p: T -> bool)
    ensures forall x :: multiset(Filter(s, p))[x] == if p(x) then multiset(s)[x] else 0
  {
    if |s| > 0 {
      assert s == [s[0]] + s[1..];
      FilterCounts(s[1..], p);
    }
  }

  /** Filtering distributes over concatenation. */
  lemma {:induction false} FilterConcat<T(!new)>(a: seq<T>, b: seq<T>, p: T -> bool)
    ensures Filter(a + b, p) == Filter(a, p) + Filter(b, p)
  {
    if |a| == 0 {
      assert a + b == b;
    } else {
      var head := if p(a[0]) then [a[0]] else [];
      assert (a + b)[0] == a[0];
      assert (a + b)[1..] == a[1..] + b;
      assert Filter(a + b, p) == head + Filter(a[1..] + b, p);
      FilterConcat(a[1..], b, p);
      assert Filter(a, p) == head + Filter(a[1..], p);
      assert head + (Filter(a[1..], p) + Filter(b, p)) == (head + Filter(a[1..], p)) + Filter(b, p);
    }
  }

  /** Filtering with a predicate every element satisfies changes nothing. */
  lemma {:induction false} FilterAll<T(!new)>(s: seq<T>, p: T -> bool)
    requires forall i :: 0 <= i < |s| ==> p(s[i])
    ensures Filter(s, p) == s
  {
    if |s| > 0 {
      FilterAll(s[1..], p);
      assert s == [s[0]] + s[1..];
    }
  }

  /** s is ordered by key, largest first (ORDER BY key DESC). */
  predicate SortedDesc<T>(s: seq<T>, key: T -> int) {
    forall i, j :: 0 <= i < j < |s| ==> key(s[i]) >= key(s[j])
  }

  /** Insert x into a sequence sorted largest-first, keeping it sorted. */
  function InsertDesc<T(==,!new)>(x: T, s: seq<T>, key: T -> int): (r: seq<T>)
    requires SortedDesc(s, key)
    ensures SortedDesc(r, key)
    ensures multiset(r) == multiset(s) + multiset{x}
  {
    if |s| == 0 then [x]
    else if key(x) >= key(s[0]) then [x] + s
    else
      var rest := InsertDesc(x, s[1..], key);
      assert s == [s[0]] + s[1..];
      HeadBoundsInsert(x, s, key, rest);
      [s[0]] + rest
  }

  /** The head of s bounds every element of x inserted into the tail, when it bounds x. */
  lemma HeadBoundsInsert<T(!new)>(x: T, s: seq<T>, key: T -> int, rest: seq<T>)
    requires |s| > 0 && SortedDesc(s, key) && key(x) < key(s[0])
    requires multiset(rest) == multiset(s[1..]) + multiset{x}
    ensures forall i :: 0 <= i < |rest| ==> key(s[0]) >= key(rest[i])
  {
    forall i | 0 <= i < |rest| ensures key(s[0]) >= key(rest[i]) {
      var y := rest[i];
      assert y in multiset(rest);
      if y != x {
        assert y in multiset(s[1..]);
        var k :| 0 <= k < |s[1..]| && s[1..][k] == y;
        assert s[k + 1] == y;
      }
    }
  }

  /** s reordered largest key first; a permutation of s. */
  function SortDesc<T(==,!new)>(s: seq<T>, key: T -> int): (r: seq<T>)
    ensures SortedDesc(r, key)
    ensures multiset(r) == multiset(s)
    ensures |r| == |s|
  {
    if |s| == 0 then []
    else
      assert s == [s[0]] + s[1..];
      var r := InsertDesc(s[0], SortDesc(s[1..], key), key);
      assert |r| == |multiset(r)|;
      r
  }
}

=== FILE: session.dfy ===
/**
 * internal/controllers/chat.go: turning the request's cookies into the
 * session id and support flag every RPC call runs under.
 *
 * The signing key stays abstract: `open` is the public-key check of a
 * PASETO v4.public token (Some(claims) when the signature verifies and the
 * claims decode), `sign` is signing with the private key, and `uuid` is the
 * text of the random UUID a new session would get. Times are seconds.
 */
module Session {
  import opened Results
  import opened Seqs
  import Cctx

  const ChatSessionCookieName := "chat_session"
  const ChatSupportCookieName := "chat_support"

  const TokenIssuer := "helpify"
  const TokenAudience := "user"

  const Hour: nat := 60 * 60
  /** How long an issued token stays valid. */
  const TokenLifetime: nat := 2 * Hour
  /** The margin added to the cookie's Expires attribute against clock and time-zone skew. */
  const ExpiresMargin: nat := 24 * Hour
  const CookieMaxAge: nat := 2 * 60 * 60
  const CookiePath := "/chat"

  /** A cookie the client sent. */
  datatype RequestCookie = RequestCookie(name: string, value: string)

  /** The registered claims of a token; a claim that is absent or of the wrong type is None. */
  datatype Claims = Claims(
    issuer: Option<string>,
    audience: Option<string>,
    subject: Option<string>,
    issuedAt: Option<nat>,
    notBefore: Option<nat>,
    expiration: Option<nat>)

  datatype SameSite = SameSiteDefaultMode | SameSiteLaxMode | SameSiteStrictMode | SameSiteNoneMode

  /** A cookie the server sets. */
  datatype Cookie = Cookie(
    name: string,
    value: string,
    path: string,
    expires: nat,
    maxAge: nat,
    sameSite: SameSite,
    httpOnly: bool,
    secure: bool)

  /** One response header line: a `Set-Cookie` carrying a cookie. */
  datatype HeaderLine = HeaderLine(name: string, cookie: Cookie)

  /** What the session step hands to the connection: the session id and the headers to send. */
  datatype Resolution = Resolution(sid: string, header: seq<HeaderLine>)

  datatype SessionError = InvalidCookie

  /** The cookie at index i is the first one with that name. */
  predicate FirstCookieAt(cookies: seq<RequestCookie>, name: string, i: int) {
    0 <= i < |cookies| && cookies[i].name == name && forall j :: 0 <= j < i ==> cookies[j].name != name
  }

  /** `r.Cookie(name)`: the value of the first cookie with that name. */
  function FindCookie(cookies: seq<RequestCookie>, name: string): (r: Option<string>)
    ensures r.None? <==> forall c :: c in cookies ==> c.name != name
    ensures r.Some? ==> RequestCookie(name, r.value) in cookies
    ensures r.Some? ==> exists i :: FirstCookieAt(cookies, name, i) && cookies[i].value == r.value
  {
    if |cookies| == 0 then None
    else if cookies[0].name == name then
      assert FirstCookieAt(cookies, name, 0);
      Some(cookies[0].value)
    else
      assert cookies == [cookies[0]] + cookies[1..];
      var r := FindCookie(cookies[1..], name);
      if r.Some? then FirstCookieShift(cookies, name, r.value); r else r
  }

  /** A first match in the tail, behind a head with another name, is the first match of the whole list. */
  lemma FirstCookieShift(cookies: seq<RequestCookie>, name: string, value: string)
    requires |cookies| > 0 && cookies[0].name != name
    requires exists i :: FirstCookieAt(cookies[1..], name, i) && cookies[1..][i].value == value
    ensures exists i :: FirstCookieAt(cookies, name, i) && cookies[i].value == value
  {
    var i :| FirstCookieAt(cookies[1..], name, i) && cookies[1..][i].value == value;
    assert FirstCookieAt(cookies, name, i + 1);
  }

  /**
   * The token parser: the signature check, then the two rules it was built
   * with, issued by "helpify" and not expired (an absent expiration fails).
   * Neither the audience nor the not-before time is checked.
   */
  function ParseToken(open: string -> Option<Claims>, value: string, now: nat): (r: Option<Claims>)
    ensures r.Some? ==> r == open(value)
    ensures r.Some? <==>
      && open(value).Some?
      && open(value).value.issuer == Some(TokenIssuer)
      && open(value).value.expiration.Some?
      && now <= open(value).value.expiration.value
  {
    match open(value)
    case None => None
    case Some(claims) =>
      if claims.issuer != Some(TokenIssuer) then None
      else if claims.expiration.None? || now > claims.expiration.value then None
      else Some(claims)
  }

  predicate NotDash(c: char) {
    c != '-'
  }

  /** `strings.ReplaceAll(s, "-", "")`. */
  function RemoveDashes(s: string): (r: string)
    ensures '-' !in r
    ensures forall c :: c != '-' ==> multiset(r)[c] == multiset(s)[c]
  {
    FilterMembers(s, NotDash);
    FilterCounts(s, NotDash);
    Filter(s, NotDash)
  }

  /** ReplaceAll works left to right: the dash-free text of a + b is that of a followed by that of b. */
  lemma RemoveDashesConcat(a: string, b: string)
    ensures RemoveDashes(a + b) == RemoveDashes(a) + RemoveDashes(b)
  {
    FilterConcat(a, b, NotDash);
  }

  /** A single character is dropped exactly when it is a dash, and kept as it is otherwise. */
  lemma RemoveDashesChar(c: char)
    ensures RemoveDashes([c]) == if c == '-' then [] else [c]
  {
    assert [c][1..] == [];
  }

  /** Text without dashes passes through unchanged, character by character. */
  lemma RemoveDashesNoDash(s: string)
    requires '-' !in s
    ensures RemoveDashes(s) == s
  {
    FilterAll(s, NotDash);
  }

  predicate IsHex(c: char) {
    '0' <= c <= '9' || 'a' <= c <= 'f'
  }

  /** The canonical text of a UUID: 32 lower-case hex digits in groups 8-4-4-4-12. */
  predicate CanonicalUuid(u: string) {
    && |u| == 36
    && (forall i :: 0 <= i < 36 ==> (u[i] == '-' <==> i == 8 || i == 13 || i == 18 || i == 23))
    && (forall i :: 0 <= i < 36 && u[i] != '-' ==> IsHex(u[i]))
  }

  /** Removing the dashes from text, a dash and a dash-free group keeps the group whole. */
  lemma DashGroup(p: string, g: string)
    requires forall i :: 0 <= i < |g| ==> NotDash(g[i])
    ensures Filter(p + ("-" + g), NotDash) == Filter(p, NotDash) + g
  {
    var s := "-" + g;
    assert s[0] == '-' && s[1..] == g;
    FilterAll(g, NotDash);
    assert Filter(s, NotDash) == Filter(s[1..], NotDash) == g;
    FilterConcat(p, s, NotDash);
  }

  /** Without its dashes, a canonical UUID keeps the 8+4+4+4+12 characters of its groups. */
  lemma UuidGroups(u: string)
    requires CanonicalUuid(u)
    ensures |Filter(u, NotDash)| == 32
  {
    var a, b, c, d, e := u[..8], u[9..13], u[14..18], u[19..23], u[24..];
    var p1 := a + ("-" + b);
    var p2 := p1 + ("-" + c);
    var p3 := p2 + ("-" + d);
    assert u == p3 + ("-" + e);
    FilterAll(a, NotDash);
    DashGroup(a, b);
    DashGroup(p1, c);
    DashGroup(p2, d);
    DashGroup(p3, e);
  }

  /** A new session id made from a canonical UUID is its 32 hex digits. */
  lemma FreshSidShape(u: string)
    requires CanonicalUuid(u)
    ensures |RemoveDashes(u)| == 32
    ensures forall i :: 0 <= i < 32 ==> IsHex(RemoveDashes(u)[i])
  {
    UuidGroups(u);
    var r := RemoveDashes(u);
    assert r == Filter(u, NotDash);
    FilterMembers(u, NotDash);
    forall i | 0 <= i < 32 ensures IsHex(r[i]) {
      assert r[i] in Filter(u, NotDash);
      var k :| 0 <= k < |u| && u[k] == r[i];
    }
  }

  /** The claims of the token issued for sid at time now. */
  function NewClaims(sid: string, now: nat): Claims {
    Claims(Some(TokenIssuer), Some(TokenAudience), Some(sid), Some(now), Some(now), Some(now + TokenLifetime))
  }

  /** A token this server issued verifies, until it expires, and yields the session id it was issued for. */
  lemma IssuedTokenVerifies(open: string -> Option<Claims>, sign: Claims -> string, sid: string, issued: nat, now: nat)
    requires forall c :: open(sign(c)) == Some(c)
    ensures ParseToken(open, sign(NewClaims(sid, issued)), now).Some? <==> now <= issued + TokenLifetime
    ensures ParseToken(open, sign(NewClaims(sid, issued)), now).Some? ==>
      ParseToken(open, sign(NewClaims(sid, issued)), now).value.subject == Some(sid)
  {
    assert open(sign(NewClaims(sid, issued))) == Some(NewClaims(sid, issued));
  }

  /** The session cookie carrying a signed token that expires at expiresAt. */
  function SessionCookie(value: string, expiresAt: nat): Cookie {
    Cookie(ChatSessionCookieName, value, CookiePath, expiresAt + ExpiresMargin, CookieMaxAge,
           SameSiteNoneMode, true, true)
  }

  /** A byte `http.Cookie.Valid` accepts in a cookie value. */
  predicate ValueCharOk(c: char) {
    0x20 as char <= c < 0x7f as char && c != '"' && c != ';' && c != '\\'
  }

  /** Text `http.Cookie.Valid` accepts as a cookie value. */
  predicate IsCookieValue(s: string) {
    forall i :: 0 <= i < |s| ==> ValueCharOk(s[i])
  }

  /** A byte `http.Cookie.Valid` accepts in a path. */
  predicate PathCharOk(c: char) {
    0x20 as char <= c < 0x7f as char && c != ';'
  }

  /** A token character, the only kind allowed in a cookie name. */
  predicate NameCharOk(c: char) {
    || 'a' <= c <= 'z' || 'A' <= c <= 'Z' || '0' <= c <= '9'
    || c in "!#$%&'*+-.^_`|~"
  }

  /**
   * `http.Cookie.Valid`: name, value and path characters. The expiry check
   * (year 1601 or later) always passes for times counted from 1970.
   */
  predicate CookieValid(c: Cookie) {
    && |c.name| > 0
    && (forall i :: 0 <= i < |c.name| ==> NameCharOk(c.name[i]))
    && (forall i :: 0 <= i < |c.value| ==> ValueCharOk(c.value[i]))
    && (forall i :: 0 <= i < |c.path| ==> PathCharOk(c.path[i]))
  }

  /** The session cookie is valid exactly when the signed token is a valid cookie value. */
  lemma SessionCookieValid(value: string, expiresAt: nat)
    ensures CookieValid(SessionCookie(value, expiresAt)) <==> IsCookieValue(value)
  {
    var name := ChatSessionCookieName;
    assert forall i :: 0 <= i < |name| ==> NameCharOk(name[i]) by {
      assert name == ['c', 'h', 'a', 't', '_', 's', 'e', 's', 's', 'i', 'o', 'n'];
      assert '_' in "!#$%&'*+-.^_`|~";
    }
    var path := CookiePath;
    assert forall i :: 0 <= i < |path| ==> PathCharOk(path[i]) by {
      assert path == ['/', 'c', 'h', 'a', 't'];
    }
  }

  /** The session id a request comes with: the non-empty subject of a session token that verifies. */
  function PriorSid(cookies: seq<RequestCookie>, open: string -> Option<Claims>, now: nat): (r: Option<string>)
    ensures r.Some? ==> r.value != ""
    ensures FindCookie(cookies, ChatSessionCookieName).None? ==> r.None?
    ensures r.Some? <==>
      && FindCookie(cookies, ChatSessionCookieName).Some?
      && ParseToken(open, FindCookie(cookies, ChatSessionCookieName).value, now).Some?
      && ParseToken(open, FindCookie(cookies, ChatSessionCookieName).value, now).value.subject.Some?
      && ParseToken(open, FindCookie(cookies, ChatSessionCookieName).value, now).value.subject.value != ""
    ensures r.Some? ==> Some(r.value) == ParseToken(open, FindCookie(cookies, ChatSessionCookieName).value, now).value.subject
  {
    match FindCookie(cookies, ChatSessionCookieName)
    case None => None
    case Some(value) =>
      match ParseToken(open, value, now)
      case None => None
      case Some(claims) =>
        if claims.subject.Some? && claims.subject.value != "" then Some(claims.subject.value) else None
  }

  /**
   * `getOrCreateChatSessionCookie`: keep the session id of a valid token or
   * mint one from the UUID (a verification failure is swallowed), then always
   * issue a fresh two-hour token for it and set it as the session cookie.
   * The only error is a signed token that is not a valid cookie value.
   */
  function GetOrCreateChatSessionCookie(
    cookies: seq<RequestCookie>, open: string -> Option<Claims>, sign: Claims -> string, uuid: string, now: nat)
    : (r: Result<Resolution, SessionError>)
    ensures var session := FindCookie(cookies, "chat_session");
      var token := if session.Some? then ParseToken(open, session.value, now) else None;
      var kept := token.Some? && token.value.subject.Some? && token.value.subject.value != "";
      var sid := if kept then token.value.subject.value else RemoveDashes(uuid);
      && (r.Ok? <==> IsCookieValue(sign(Claims(Some("helpify"), Some("user"), Some(sid), Some(now), Some(now), Some(now + 7200)))))
      && (r.Ok? ==> r.value.sid == sid)
    ensures r.Ok? ==>
      && |r.value.header| == 1 && r.value.header[0].name == "Set-Cookie"
      && var c := r.value.header[0].cookie;
      && c.name == "chat_session" && c.path == "/chat" && c.maxAge == 7200
      && c.httpOnly && c.secure && c.sameSite == SameSiteNoneMode
      && c.expires == now + 2 * 3600 + 24 * 3600
      && c.value == sign(Claims(Some("helpify"), Some("user"), Some(r.value.sid), Some(now), Some(now), Some(now + 7200)))
      && CookieValid(c)
    ensures r.Err? ==> r.error == InvalidCookie
  {
    var sid := match PriorSid(cookies, open, now) case Some(s) => s case None => RemoveDashes(uuid);
    var cookie := SessionCookie(sign(NewClaims(sid, now)), now + TokenLifetime);
    SessionCookieValid(cookie.value, now + TokenLifetime);
    if !CookieValid(cookie) then Err(InvalidCookie)
    else Ok(Resolution(sid, [HeaderLine("Set-Cookie", cookie)]))
  }

  /** Without a session cookie the request gets a new session id and a cookie whose attributes are fixed. */
  lemma NoCookieNewSession(
    cookies: seq<RequestCookie>, open: string -> Option<Claims>, sign: Claims -> string, uuid: string, now: nat)
    requires forall c :: c in cookies ==> c.name != ChatSessionCookieName
    requires forall c :: IsCookieValue(sign(c))
    ensures var r := GetOrCreateChatSessionCookie(cookies, open, sign, uuid, now);
      && r.Ok?
      && r.value.sid == RemoveDashes(uuid)
      && |r.value.header| == 1 && r.value.header[0].name == "Set-Cookie"
      && var c := r.value.header[0].cookie;
      && c.name == "chat_session" && c.path == "/chat" && c.maxAge == 7200
      && c.httpOnly && c.secure && c.sameSite == SameSiteNoneMode
      && c.expires == now + 2 * 3600 + 24 * 3600
      && c.value == sign(Claims(Some("helpify"), Some("user"), Some(RemoveDashes(uuid)), Some(now), Some(now), Some(now + 7200)))
  {
    var sid := RemoveDashes(uuid);
    SessionCookieValid(sign(NewClaims(sid, now)), now + TokenLifetime);
  }

  /** A session cookie whose token does not verify is treated as no cookie at all. */
  lemma InvalidTokenIgnored(
    cookies: seq<RequestCookie>, open: string -> Option<Claims>, sign: Claims -> string, uuid: string, now: nat)
    requires FindCookie(cookies, ChatSessionCookieName).Some?
    requires ParseToken(open, FindCookie(cookies, ChatSessionCookieName).value, now).None?
    ensures GetOrCreateChatSessionCookie(cookies, open, sign, uuid, now)
      == GetOrCreateChatSessionCookie([], open, sign, uuid, now)
  {
  }

  /**
   * Sessions stick: presenting the cookie a previous call set, before its token
   * expires, yields the same session id; afterwards a new one is minted.
   */
  lemma SessionPersists(
    open: string -> Option<Claims>, sign: Claims -> string,
    first: seq<RequestCookie>, uuid: string, issued: nat,
    next: seq<RequestCookie>, uuid': string, now: nat)
    requires forall c :: open(sign(c)) == Some(c)
    requires GetOrCreateChatSessionCookie(first, open, sign, uuid, issued).Ok?
    requires GetOrCreateChatSessionCookie(first, open, sign, uuid, issued).value.sid != ""
    requires FindCookie(next, ChatSessionCookieName)
      == Some(GetOrCreateChatSessionCookie(first, open, sign, uuid, issued).value.header[0].cookie.value)
    ensures var r := GetOrCreateChatSessionCookie(next, open, sign, uuid', now);
      r.Ok? ==> r.value.sid == if now <= issued + TokenLifetime
        then GetOrCreateChatSessionCookie(first, open, sign, uuid, issued).value.sid
        else RemoveDashes(uuid')
  {
    var sid := GetOrCreateChatSessionCookie(first, open, sign, uuid, issued).value.sid;
    IssuedTokenVerifies(open, sign, sid, issued, now);
  }

  /**
   * `prepareRequest`: bind the session id and the support flag into the
   * request context. The flag is true exactly when a `chat_support` cookie
   * is present, whatever its value.
   */
  function PrepareRequest(parent: Cctx.Ctx, cookies: seq<RequestCookie>, sid: string): (ctx: Cctx.Ctx)
    ensures Cctx.SessionIdOf(ctx) == Some(sid)
    ensures Cctx.SupportOf(ctx) == Some(exists c :: c in cookies && c.name == ChatSupportCookieName)
    ensures Cctx.Depth(ctx) == Cctx.Depth(parent) + 2
    ensures forall k :: k != Cctx.SessionID && k != Cctx.SupportPersonnel ==> Cctx.Lookup(ctx, k) == Cctx.Lookup(parent, k)
  {
    var support := FindCookie(cookies, ChatSupportCookieName).Some?;
    var values := [Cctx.SessionID, Cctx.Str(sid), Cctx.SupportPersonnel, Cctx.Flag(support)];
    var ctx := Cctx.WithValues(parent, values);
    assert Cctx.LastBinding(values, Cctx.SessionID) == Some(Cctx.Str(sid));
    assert Cctx.LastBinding(values, Cctx.SupportPersonnel) == Some(Cctx.Flag(support));
    forall k | k != Cctx.SessionID && k != Cctx.SupportPersonnel ensures Cctx.LastBinding(values, k).None? {
      var front := values[..2];
      assert front == [Cctx.SessionID, Cctx.Str(sid)];
      assert values[|values| - 2] == Cctx.SupportPersonnel;
      assert Cctx.LastBinding(values, k) == Cctx.LastBinding(front, k);
      assert front[..0] == [];
      assert Cctx.LastBinding(front, k) == Cctx.LastBinding(front[..0], k);
    }
    ctx
  }
}

=== FILE: store_invariants.dfy ===
/**
 * Properties of the store that hold across calls: every modelled method
 * keeps the store well formed (unique keys, references to existing rooms,
 * at most one open room per owner), and no method ever reopens a room.
 */
module StoreInvariants {
  import opened Results
  import opened Decimal
  import opened Models
  import opened ChatStructs
  import opened Common
  import opened RoomService
  import opened ChatService

  /**
   * How the rooms table may change between two stores: rows are only
   * appended, keys, owners and creation times never change, and an
   * archival stamp once set stays as it is.
   */
  predicate RoomsEvolve(before: seq<Room>, after: seq<Room>) {
    && |before| <= |after|
    && forall i :: 0 <= i < |before| ==>
      && after[i].id == before[i].id
      && after[i].owner == before[i].owner
      && after[i].createdAt == before[i].createdAt
      && (before[i].archivedAt.Some? ==> after[i].archivedAt == before[i].archivedAt)
  }

  lemma RoomsEvolveTransitive(a: seq<Room>, b: seq<Room>, c: seq<Room>)
    requires RoomsEvolve(a, b) && RoomsEvolve(b, c)
    ensures RoomsEvolve(a, c)
  {
  }

  /** Room references into a grown rooms table stay valid when old keys are kept. */
  lemma RoomExistsKept(before: seq<Room>, after: seq<Room>, id: nat)
    requires RoomsEvolve(before, after)
    requires RoomExists(before, id)
    ensures RoomExists(after, id)
  {
    var r :| r in before && r.id == id;
    var i :| 0 <= i < |before| && before[i] == r;
    assert after[i] in after;
  }

  /** Appending a fresh room whose owner has nothing open keeps both room invariants. */
  lemma AppendRoomKeepsInvariants(rooms: seq<Room>, room: Room)
    requires UniqueRoomIds(rooms) && OneOpenRoomPerOwner(rooms)
    requires forall r :: r in rooms ==> r.id != room.id
    requires !HasOpenRoom(rooms, room.owner)
    ensures UniqueRoomIds(rooms + [room]) && OneOpenRoomPerOwner(rooms + [room])
    ensures RoomsEvolve(rooms, rooms + [room])
  {
    var after := rooms + [room];
    forall i, j | 0 <= i < j < |after| ensures after[i].id != after[j].id {
      if j == |rooms| {
        assert rooms[i] in rooms;
      }
    }
    forall i, j | 0 <= i < j < |after| && after[i].owner == after[j].owner
      ensures !(after[i].IsOpen() && after[j].IsOpen())
    {
      if j == |rooms| {
        assert rooms[i] in rooms;
      }
    }
  }

  /** Appending a membership row with a fresh key keeps the keys unique. */
  lemma AppendJoinedKeepsUnique(joined: seq<JoinedRoom>, row: JoinedRoom)
    requires UniqueJoinedRoomIds(joined)
    requires forall j :: j in joined ==> j.id != row.id
    ensures UniqueJoinedRoomIds(joined + [row])
  {
    var after := joined + [row];
    forall i, j | 0 <= i < j < |after| ensures after[i].id != after[j].id {
      if j == |joined| {
        assert joined[i] in joined;
      }
    }
  }

  lemma CreatePreservesValid(st: Store, sid: string, now: nat)
    requires Valid(st)
    requires Create(st, sid, now).Ok?
    ensures Valid(Create(st, sid, now).value.store)
    ensures RoomsEvolve(st.rooms, Create(st, sid, now).value.store.rooms)
    ensures Create(st, sid, now).value.store.rooms[..|st.rooms|] == st.rooms
  {
    var st' := Create(st, sid, now).value.store;
    var n := |st.rooms|;
    var room := st'.rooms[n];
    var row := st'.joinedRooms[|st.joinedRooms|];
    assert st'.rooms == st.rooms + [room] by {
      assert st'.rooms[..n] == st.rooms;
    }
    assert st'.joinedRooms == st.joinedRooms + [row] by {
      assert st'.joinedRooms[..|st.joinedRooms|] == st.joinedRooms;
    }
    AppendRoomKeepsInvariants(st.rooms, room);
    AppendJoinedKeepsUnique(st.joinedRooms, row);
    assert room in st'.rooms;
    forall j | j in st'.joinedRooms ensures RoomExists(st'.rooms, j.roomId) {
      if j in st.joinedRooms {
        RoomExistsKept(st.rooms, st'.rooms, j.roomId);
      }
    }
    forall m | m in st'.messages ensures RoomExists(st'.rooms, m.roomId) {
      RoomExistsKept(st.rooms, st'.rooms, m.roomId);
    }
  }

  lemma JoinPreservesValid(st: Store, sid: string, isSupport: bool, roomId: string)
    requires Valid(st)
    requires Join(st, sid, isSupport, roomId).Ok?
    ensures Valid(Join(st, sid, isSupport, roomId).value.store)
  {
    var st' := Join(st, sid, isSupport, roomId).value.store;
    var k := |st.joinedRooms|;
    var joined := st'.joinedRooms[k];
    assert st'.joinedRooms == st.joinedRooms + [joined] by {
      assert st'.joinedRooms[..k] == st.joinedRooms;
    }
    AppendJoinedKeepsUnique(st.joinedRooms, joined);
    assert RoomExists(st.rooms, joined.roomId);
  }

  /** Stamping rooms archived keeps keys, owners and creation times, and only closes rooms. */
  lemma ArchiveRoomsEvolve(rooms: seq<Room>, id: nat, now: nat)
    requires UniqueRoomIds(rooms) && OneOpenRoomPerOwner(rooms)
    requires forall room :: room in rooms && room.id == id ==> room.IsOpen()
    ensures RoomsEvolve(rooms, ArchiveRooms(rooms, id, now))
    ensures UniqueRoomIds(ArchiveRooms(rooms, id, now))
    ensures OneOpenRoomPerOwner(ArchiveRooms(rooms, id, now))
  {
  }

  lemma ArchivePreservesValid(st: Store, sid: string, isSupport: bool, roomId: string, now: nat)
    requires Valid(st)
    requires Archive(st, sid, isSupport, roomId, now).Ok?
    ensures Valid(Archive(st, sid, isSupport, roomId, now).value.store)
    ensures RoomsEvolve(st.rooms, Archive(st, sid, isSupport, roomId, now).value.store.rooms)
  {
    var room := FindRoom(st, roomId).value;
    var st' := st.(rooms := ArchiveRooms(st.rooms, room.id, now));
    assert Archive(st, sid, isSupport, roomId, now).value.store == st';
    forall r | r in st.rooms && r.id == room.id ensures r.IsOpen() {
      FindRoomUnique(st, roomId, r);
    }
    ArchiveRoomsEvolve(st.rooms, room.id, now);
    forall j | j in st'.joinedRooms ensures RoomExists(st'.rooms, j.roomId) {
      RoomExistsKept(st.rooms, st'.rooms, j.roomId);
    }
    forall m | m in st'.messages ensures RoomExists(st'.rooms, m.roomId) {
      RoomExistsKept(st.rooms, st'.rooms, m.roomId);
    }
  }

  /** Appending a message with a fresh key keeps the keys unique. */
  lemma AppendMessageKeepsUnique(messages: seq<Message>, msg: Message)
    requires UniqueMessageIds(messages)
    requires forall m :: m in messages ==> m.id != msg.id
    ensures UniqueMessageIds(messages + [msg])
  {
    var after := messages + [msg];
    forall i, j | 0 <= i < j < |after| ensures after[i].id != after[j].id {
      if j == |messages| {
        assert messages[i] in messages;
      }
    }
  }

  lemma SendPreservesValid(st: Store, sid: string, isSupport: bool, input: InputMessage, now: nat)
    requires Valid(st)
    requires FindRoom(st, input.roomId).Ok?
    ensures Valid(Send(st, sid, isSupport, input, now).value.store)
  {
    var st' := Send(st, sid, isSupport, input, now).value.store;
    var n := |st.messages|;
    var msg := st'.messages[n];
    assert st'.messages == st.messages + [msg] by {
      assert st'.messages[..n] == st.messages;
    }
    AppendMessageKeepsUnique(st.messages, msg);
    assert RoomExists(st.rooms, msg.roomId);
  }

  /**
   * The id text Create hands back names the room in a later Send, and the
   * message Send returns carries that very text as its room id.
   */
  lemma CreateThenSendSameRoomId(
    st: Store, owner: string, created: nat, sender: string, isSupport: bool, text: string, now: nat)
    requires Create(st, owner, created).Ok?
    requires Create(st, owner, created).value.store.rooms[|st.rooms|].id <= MaxInt64
    ensures var reply := Create(st, owner, created).value;
      var r := Send(reply.store, sender, isSupport, InputMessage(reply.value, text), now);
      r.Ok? && r.value.value.roomId == reply.value
  {
    var reply := Create(st, owner, created).value;
    var room := reply.store.rooms[|st.rooms|];
    CreateThenFind(st, owner, created);
    var r := Send(reply.store, sender, isSupport, InputMessage(reply.value, text), now);
    NumeralIsRender(reply.value, room.id);
    NumeralIsRender(r.value.value.roomId, room.id);
  }

  /** One RPC call as the dispatcher hands it to a service method. */
  datatype Call =
    | CreateRoom
    | JoinRoom(roomId: string)
    | ArchiveRoom(roomId: string)
    | ListRooms
    | NewRoomsSubscription(canNotify: bool)
    | SendMessage(input: InputMessage)
    | ChatHistory(roomId: string)

  /** A call together with the identity and clock it runs under. */
  datatype Request = Request(sid: string, isSupport: bool, now: nat, call: Call)

  /** The store after one call: a failed call or a query leaves it as it was. */
  function Apply(st: Store, req: Request): Store {
    match req.call
    case CreateRoom => After(st, Create(st, req.sid, req.now))
    case JoinRoom(id) => After(st, Join(st, req.sid, req.isSupport, id))
    case ArchiveRoom(id) => After(st, Archive(st, req.sid, req.isSupport, id, req.now))
    case SendMessage(input) => After(st, Send(st, req.sid, req.isSupport, input, req.now))
    case ListRooms => st
    case NewRoomsSubscription(_) => st
    case ChatHistory(_) => st
  }

  /** The store a service call leaves behind: its new store, or the old one on an error. */
  function After<T>(st: Store, r: Result<Reply<T>, Error>): Store {
    match r
    case Ok(reply) => reply.store
    case Err(_) => st
  }

  /** The store after a sequence of calls, one after another. */
  function Run(st: Store, reqs: seq<Request>): Store
    decreases |reqs|
  {
    if |reqs| == 0 then st else Run(Apply(st, reqs[0]), reqs[1..])
  }

  lemma CreateStep(st: Store, sid: string, now: nat)
    requires Valid(st)
    ensures Valid(After(st, Create(st, sid, now)))
    ensures RoomsEvolve(st.rooms, After(st, Create(st, sid, now)).rooms)
  {
    if Create(st, sid, now).Ok? {
      CreatePreservesValid(st, sid, now);
    }
  }

  lemma JoinStep(st: Store, sid: string, isSupport: bool, id: string)
    requires Valid(st)
    ensures Valid(After(st, Join(st, sid, isSupport, id)))
    ensures RoomsEvolve(st.rooms, After(st, Join(st, sid, isSupport, id)).rooms)
  {
    if Join(st, sid, isSupport, id).Ok? {
      JoinPreservesValid(st, sid, isSupport, id);
    }
  }

  lemma ArchiveStep(st: Store, sid: string, isSupport: bool, id: string, now: nat)
    requires Valid(st)
    ensures Valid(After(st, Archive(st, sid, isSupport, id, now)))
    ensures RoomsEvolve(st.rooms, After(st, Archive(st, sid, isSupport, id, now)).rooms)
  {
    if Archive(st, sid, isSupport, id, now).Ok? {
      ArchivePreservesValid(st, sid, isSupport, id, now);
    }
  }

  lemma SendStep(st: Store, sid: string, isSupport: bool, input: InputMessage, now: nat)
    requires Valid(st)
    ensures Valid(After(st, Send(st, sid, isSupport, input, now)))
    ensures RoomsEvolve(st.rooms, After(st, Send(st, sid, isSupport, input, now)).rooms)
  {
    if Send(st, sid, isSupport, input, now).Ok? {
      SendPreservesValid(st, sid, isSupport, input, now);
    }
  }

  lemma ApplyPreservesValid(st: Store, req: Request)
    requires Valid(st)
    ensures Valid(Apply(st, req))
    ensures RoomsEvolve(st.rooms, Apply(st, req).rooms)
  {
    match req.call
    case CreateRoom => CreateStep(st, req.sid, req.now);
    case JoinRoom(id) => JoinStep(st, req.sid, req.isSupport, id);
    case ArchiveRoom(id) => ArchiveStep(st, req.sid, req.isSupport, id, req.now);
    case SendMessage(input) => SendStep(st, req.sid, req.isSupport, input, req.now);
    case ListRooms =>
    case NewRoomsSubscription(_) =>
    case ChatHistory(_) =>
  }

  /**
   * Any sequence of calls keeps the store well formed (in particular, no
   * owner ever has two open rooms) and never clears an archival stamp.
   */
  lemma {:induction false} RunPreservesValid(st: Store, reqs: seq<Request>)
    requires Valid(st)
    ensures Valid(Run(st, reqs))
    ensures RoomsEvolve(st.rooms, Run(st, reqs).rooms)
    decreases |reqs|
  {
    if |reqs| > 0 {
      ApplyPreservesValid(st, reqs[0]);
      RunPreservesValid(Apply(st, reqs[0]), reqs[1..]);
      RoomsEvolveTransitive(st.rooms, Apply(st, reqs[0]).rooms, Run(st, reqs).rooms);
    }
  }

  /** Every store reachable from the empty database is well formed. */
  lemma ReachableStoresValid(reqs: seq<Request>)
    ensures Valid(Run(EmptyStore, reqs))
    ensures OneOpenRoomPerOwner(Run(EmptyStore, reqs).rooms)
  {
    RunPreservesValid(EmptyStore, reqs);
  }
}
